=== FILE: README.md ===
# Cash-flow actual and forecast curves

A Dafny model of two of the cash-flow jobs. Each job computes one spending
curve per entity. An entity is keyed by (PROJECT_NUMBER, STAGE, SUB_STAGE).

- **Actual-cost curve** (`Cashflow/ActualValue.py`). The budget roll-up of
  the fund table. The left join of the ledger with budgets and schedules.
  Then `add_cumulative_per_group`, which:
  - normalises the column names by substring tests;
  - coerces the costs (anything unparsable or missing becomes 0);
  - sums the ledger rows of each (entity, invoice date);
  - drops the dates whose net cost is exactly 0;
  - sorts, and attaches a per-entity running sum (CUMULATIVE_ACTUAL_COST).
- **Forecast curve** (`Cashflow/ForecastValue.py`, `create_forecast_curve`).
  Per entity it computes the total actual cost, the maximum approved budget
  and the latest cumulative actual. It keeps the planned rows dated after the
  as-of date. It spreads the remaining budget `max(0, budget - actual)` over
  those rows in proportion to their planned values. It stacks the running sum
  of those forecast values on the last cumulative actual.

How the model is built:
- Tables are sequences of record datatypes.
- Amounts are exact `real`s and dates are `int` day numbers.
- SQL NULL and pandas NaN are `Option.None`.
- The as-of date (`current_date()` in the source) is a parameter.
- The PLANNEDVALUE table is an input sequence.

Files:
- `common.dfy`: keys, `Option`, and the lexicographic key order.
- `columns.dfy`: the column-renaming loop.
- `sources.dfy`: the budget roll-up and the left join.
- `actual_value.dfy`: `add_cumulative_per_group`. A method chains the
  pipeline steps, which are functions over sequences.
- `forecast_value.dfy`: `create_forecast_curve` and its allocation
  properties.

Behaviour of the code that the model keeps:
- **Zero filter.** A (key, date) group whose summed cost is 0 is dropped,
  which also removes a +X/−X pair on one date. Individual zero rows are not
  dropped before summing.
- **Forecast offset.** The forecast is stacked on the CUMULATIVE_ACTUAL_COST
  of the entity's latest row. `ForecastEndsAtBudgetOrActual` proves that this
  is the entity's total actual cost on a table built by
  `add_cumulative_per_group`.
- **NULL budget.** An entity whose budgets are all NULL gets NULL forecast
  values. The budget is not read as 0.
- **Left joins.** Both joins of `join_all_data` are left joins, so a ledger row
  without a schedule is kept with NULL schedule fields.
- **Missing columns.** `add_cumulative_per_group` raises KeyError when a
  column it reads is absent. This includes an empty ledger, whose frame has
  no columns at all.

## Model

| member | source | states |
|---|---|---|
| Columns.ColumnTarget | Cashflow/ActualValue.py:93-100 | A name has a target iff some test matches it. The test for STAGE is "contains STAGE and not SUB"; every other test is "contains the name". The target is the canonical name of the first test, in the loop's order, that matches. |
| Columns.BuildColumnMap | Cashflow/ActualValue.py:91-100 | The loop's map has an entry exactly for the columns some test matches, and each entry is that column's first-matching target. |
| Columns.NormaliseColumns | Cashflow/ActualValue.py:91-101 | After the rename, the header has the same length and each column carries its canonical name, or keeps its own when no test matches. |
| Columns.CanonicalFixedPoint | Cashflow/ActualValue.py:93-100 | Every canonical name renames to itself. In particular SUB_STAGE is not captured by the STAGE test that precedes it. |
| Columns.CanonicalNameIdempotent | Cashflow/ActualValue.py:91-101 | Renaming an already renamed column changes nothing. |
| Columns.NormaliseColumnsIdempotent | Cashflow/ActualValue.py:91-101 | Normalising a normalised header is the identity, column by column. |
| Sources.DistinctKeys | Cashflow/ActualValue.py:37 | The group keys are pairwise distinct and are exactly the keys present. |
| Sources.FundSum | Cashflow/ActualValue.py:37-41 | SUM of an entity's fund budgets is NULL exactly when all of them are NULL, and otherwise equals their total with NULLs skipped. |
| Sources.BudgetTotals | Cashflow/ActualValue.py:29-42 | `load_budget_data` yields one row per entity of the fund table, with distinct keys, covering every fund row, each holding the entity's SUM. |
| Sources.RollUpCoversFunds | Cashflow/ActualValue.py:37 | Grouping by the distinct keys covers every fund row and invents no entity. |
| Sources.BudgetMatches | Cashflow/ActualValue.py:60-65 | The budget side of the first join holds one budget per budget row with a matching key, with multiplicity. |
| Sources.ScheduleMatches | Cashflow/ActualValue.py:66-71 | The schedule side of the second join holds each schedule row with a matching key as often as it occurs, and no other row. |
| Sources.JoinAllData | Cashflow/ActualValue.py:57-81 | The two left joins drop no ledger row: there are at least as many joined rows as ledger rows, and the result is empty only for an empty ledger. |
| Sources.JoinOneShape | Cashflow/ActualValue.py:60-81 | A ledger row yields (length of its budget side) × (length of its schedule side) joined rows. The budget side is the matching budgets, or one NULL when none matches; the schedule side likewise, or one all-NULL schedule. Each row carries the ledger row's key, date and cost, one entry of the budget side and one of the schedule side. |
| Sources.JoinOnePairs | Cashflow/ActualValue.py:60-81 | Every (budget match b, schedule match s) pair appears among a ledger row's joined rows, at position `Position(b, s, n)` for n schedule matches. With the count above, each pair appears exactly once, duplicate matches included. |
| Sources.PositionIsProduct | Cashflow/ActualValue.py:60-81 | The position of pair (b, s) is b · n + s, so distinct pairs take distinct positions. |
| Sources.JoinKeepsEveryActual | Cashflow/ActualValue.py:57-81 | The left join keeps every ledger row at least once, with its key, date and cost. |
| Sources.JoinInventsNothing | Cashflow/ActualValue.py:57-81 | Every joined row comes from some ledger row. Its budget and schedule come from rows matching its key, or are NULL when none match. |
| Sources.UniqueBudgetSide | Cashflow/ActualValue.py:60-65 | With distinct budget keys the first join attaches exactly one budget, or NULL. |
| Sources.UniqueScheduleSide | Cashflow/ActualValue.py:66-71 | With distinct schedule keys the second join attaches exactly one schedule window, or NULLs. |
| Sources.JoinIsRowForRow | Cashflow/ActualValue.py:57-81 | With at most one budget row and one schedule row per entity, the join keeps the ledger row for row, attaching the looked-up budget and schedule. |
| Sources.JoinWithRollUp | Cashflow/ActualValue.py:37-42 | Joined against the budget roll-up, the ledger is kept row for row whenever schedules are unique per entity. |
| ActualValue.Converted | Cashflow/ActualValue.py:105 | Conversion keeps the table row for row, with parsable costs kept and all others set to 0. |
| ActualValue.InvalidCostsContributeNothing | Cashflow/ActualValue.py:105 | A ledger row whose cost is unparsable or missing changes no group's sum and no entity's total. |
| ActualValue.SortRowsSorted | Cashflow/ActualValue.py:108 | The group-by's sort yields a permutation of its input, sorted by key and then date. |
| ActualValue.SortKeepsGroups | Cashflow/ActualValue.py:108 | Sorting keeps each (key, date) group in its original relative order, and keeps each entity's cost. |
| ActualValue.CollapseShape | Cashflow/ActualValue.py:108-113 | The collapsed rows' (key, date) groups are exactly the input's groups, in both directions. That each group occurs only once on sorted input is `CollapseOrdered`'s strict order. |
| ActualValue.CollapseOrdered | Cashflow/ActualValue.py:108-113 | The collapsed rows are strictly ordered by key and date. |
| ActualValue.CollapseAggregates | Cashflow/ActualValue.py:108-113 | Each collapsed row sums the costs of its group and takes the group's first non-NULL budget, start and end. |
| ActualValue.CollapseKeyCost | Cashflow/ActualValue.py:108-113 | Collapsing keeps each entity's total cost. |
| ActualValue.GroupBySum | Cashflow/ActualValue.py:108-113 | One row per (key, date) present, strictly ordered, so no pair appears twice. Each row is the aggregate of exactly its input rows: their cost sum and first non-NULL budget and schedule. Every input row's group is present, and every entity's total cost is preserved. |
| ActualValue.DropZero | Cashflow/ActualValue.py:115-116 | No kept row has cost 0. Every row with a non-zero cost is kept. Strict order and every entity's total cost are preserved. |
| ActualValue.NonZeroGroups | Cashflow/ActualValue.py:108-116 | After summing and dropping zeros, each (key, date) group with a non-zero sum appears exactly once. Each row is its group's aggregate, and entity totals equal the input totals. |
| ActualValue.SortSortedIsIdentity | Cashflow/ActualValue.py:119 | The stable sort of rows already in order is the identity, so the second `sort_values` changes nothing. |
| ActualValue.CumulativePerGroup | Cashflow/ActualValue.py:120-122 | Each row keeps its data. Its cumulative is the sum of its entity's costs up to and including the row. |
| ActualValue.CumulativeFirstRow | Cashflow/ActualValue.py:120-122 | An entity's first row has a cumulative equal to its own cost. |
| ActualValue.CumulativeStep | Cashflow/ActualValue.py:120-122 | Within an entity, consecutive cumulatives differ by exactly the later row's cost. Nothing clamps them. |
| ActualValue.CumulativeLastRow | Cashflow/ActualValue.py:120-122 | An entity's last row carries the entity's whole net cost. |
| ActualValue.CumulativeIsCostUpToDate | Cashflow/ActualValue.py:119-122 | On strictly ordered rows, a row's cumulative is the sum of its entity's costs dated on or before its date. |
| ActualValue.AddCumulativePerGroup | Cashflow/ActualValue.py:85-125 | An empty ledger gives a frame with no columns. Otherwise the header is normalised. The result is KeyError iff a canonical column is absent from the header. On success, rows are strictly ordered, never cost 0, and each is the aggregate of its input group. The curve is the running sum `CumulativePerGroup` of its own rows, so the per-row cumulative lemmas apply to it. Every group with a non-zero sum is present. Each cumulative is the entity's cost up to that date, and an entity's last cumulative equals the total of all its ledger costs. |
| ForecastValue.MaxBudget | Cashflow/ForecastValue.py:13-19 | MAX(budget) per entity is NULL iff every budget of the entity is NULL. Otherwise it is a budget of the entity and bounds every non-NULL budget. |
| ForecastValue.LatestRow | Cashflow/ForecastValue.py:22-31 | An entity has a latest row iff it has actual rows. That row belongs to the entity, and no row of the entity is dated later. |
| ForecastValue.Summaries | Cashflow/ForecastValue.py:13-31 | The joined summary table has an entry exactly for the entities with actual rows. |
| ForecastValue.FuturePlanned | Cashflow/ForecastValue.py:34-38 | The joined rows are the planned rows dated strictly after the as-of date whose entity has actuals, each as often as it occurs in PLANNEDVALUE. The inner joins drop all others. |
| ForecastValue.RemainingAmount | Cashflow/ForecastValue.py:55-59 | `greatest(0, budget - actual)` is NULL iff the budget is NULL. Otherwise it is at least 0, at least budget − actual, and equal to one of them. |
| ForecastValue.PercentsSumToOne | Cashflow/ForecastValue.py:40-54 | When an entity's future planned total is non-zero, its planned percents sum to 1. |
| ForecastValue.PercentSumIsShare | Cashflow/ForecastValue.py:50-54 | The percents of any rows sum to their planned total divided by the total. |
| ForecastValue.PercentInUnitInterval | Cashflow/ForecastValue.py:50-54 | With non-negative planned values every planned percent lies in [0, 1]. This includes the zero-total case, where it is 0. |
| ForecastValue.RowWithinTotal | Cashflow/ForecastValue.py:40-44 | With non-negative planned values each row's value lies between 0 and its entity's future total. |
| ForecastValue.FutureTotalNonNegative | Cashflow/ForecastValue.py:40-44 | With non-negative planned values the future planned total is non-negative. |
| ForecastValue.ForecastFor | Cashflow/ForecastValue.py:47-73 | An output row keeps its planned row's key and date. Its FORECAST_VALUE and FORECAST_FINAL_VALUE are non-NULL iff the entity's budget is. |
| ForecastValue.ForecastRows | Cashflow/ForecastValue.py:47-73 | Each joined row yields exactly one output row, in order, computed against its entity's summary. |
| ForecastValue.CreateForecastCurve | Cashflow/ForecastValue.py:7-82 | There is one output row per joined planned row, so no more than there are planned rows. Each is dated after the as-of date, belongs to an entity with actuals, and is NULL-valued iff the entity's MAX budget is NULL. |
| ForecastValue.CurveCoversFuturePlanned | Cashflow/ForecastValue.py:34-38 | Every planned row dated after the as-of date whose entity has actuals yields an output row with its key and date. |
| ForecastValue.CumForecastIsShare | Cashflow/ForecastValue.py:66-70 | The window sum up to a date equals the remaining amount times the planned share up to that date. It is 0 when the future total is 0. |
| ForecastValue.PlannedUpToWhole | Cashflow/ForecastValue.py:66-70 | At a date no entity row exceeds, the share up to that date is the whole future total. |
| ForecastValue.PlannedUpToMonotone | Cashflow/ForecastValue.py:66-70 | With non-negative planned values the planned share grows with the date and stays between 0 and the total. |
| ForecastValue.RemainingFullyAllocated | Cashflow/ForecastValue.py:60-70 | Over all of an entity's future rows the forecast values add up to the remaining amount, or to 0 when the future total is 0. |
| ForecastValue.WindowSumsOrdered | Cashflow/ForecastValue.py:60-70 | With non-negative planned values, CUM_FORECAST of an entity is at least 0 and never falls as the date advances. |
| ForecastValue.ForecastUpToWhole | Cashflow/ForecastValue.py:66-70 | Up to a date no row of the entity exceeds, the running FORECAST_VALUE sum is the whole column. |
| ForecastValue.RunningSumIsWindowSum | Cashflow/ForecastValue.py:60-70 | On the output rows, the running FORECAST_VALUE sum of an entity up to any date equals the window sum at that date. |
| ForecastValue.ForecastSumIsWindowSum | Cashflow/ForecastValue.py:60-70 | An entity's FORECAST_VALUE column sums to the window sum at its latest date. |
| ForecastValue.FinalIsRunningSum | Cashflow/ForecastValue.py:65-73 | On the curve, a row's FORECAST_FINAL_VALUE is the sum of its entity's FORECAST_VALUEs dated on or before its DATE (tied rows included), plus the entity's last CUMULATIVE_ACTUAL_COST. |
| ForecastValue.ForecastValuesAllocateRemaining | Cashflow/ForecastValue.py:47-63 | On the whole curve, an entity's FORECAST_VALUEs sum to its REMAINING_AMOUNT when its future planned total is non-zero, and to 0 otherwise. |
| ForecastValue.RowAtLatestDate | Cashflow/ForecastValue.py:66-73 | When the entity's future planned total is non-zero, a row on its latest future date ends at the last cumulative plus the whole remaining amount. |
| ForecastValue.RowsNonDecreasing | Cashflow/ForecastValue.py:50-73 | With non-negative planned values, a later row ends no lower than an earlier one, and no row is lower than the last cumulative. |
| ForecastValue.LastForecastAddsRemaining | Cashflow/ForecastValue.py:65-73 | On the curve, the row at an entity's latest future date has FORECAST_FINAL_VALUE = last CUMULATIVE_ACTUAL_COST + REMAINING_AMOUNT, when the future total is non-zero. |
| ForecastValue.ForecastNonDecreasing | Cashflow/ForecastValue.py:50-73 | When the entity's planned values dated after the as-of date are non-negative, its FORECAST_FINAL_VALUE never falls as DATE advances. It is never below the entity's last cumulative actual. |
| ForecastValue.LatestCumulativeIsTotal | Cashflow/ForecastValue.py:22-31 | On a table whose cumulatives are cost up to date, the latest row's cumulative is the entity's total actual cost. |
| ForecastValue.ForecastEndsAtBudgetOrActual | Cashflow/ForecastValue.py:13-73 | Fed the output of `add_cumulative_per_group`, when the entity's MAX budget is non-NULL and its future planned total is non-zero, its last forecast row ends at max(MAX budget, total actual cost). With a zero future total every percent is 0, so nothing of the remaining amount is allocated; the lemma does not cover that case. |

## Left out

- Loading and writing tables (`load_actuals_with_invoice_date`, `load_schedule_data`, `union_all`, `save_as_table`, `main`) is I/O. The unioned ledger is one input sequence and the output is a returned value.
- The conversions between Snowpark and pandas (`to_local_iterator`, `create_dataframe`) are library plumbing. The model passes sequences directly.
- Date parsing (`pd.to_datetime`) and `current_date()`: dates are integer day numbers and the as-of date is a parameter.
- Floating-point and decimal rounding: amounts are exact reals.
- pandas `groupby` drops rows with a NULL key or date. Keys and dates are never NULL in this model.
- PLANNED_CURVE_VALUE and DATE are never NULL in this model, so a NULL planned total is not represented.
- ForecastValue.LatestRow: among rows tied on an entity's latest INVOICE_DATE, `row_number()` picks one arbitrarily. The model picks the first in table order and states only that no row is dated later. On a table built by `add_cumulative_per_group`, dates are unique within an entity, so no tie can arise.
- ForecastValue.CumForecast: the window includes peers tied on DATE (the SQL default frame). The lemmas therefore speak of dates, not row positions.
- ActualValue.AddCumulativePerGroup: a header in which two columns are renamed to the same canonical name is treated like one with distinct names. In pandas that name then selects two columns, and what follows fails or differs; the model does not represent duplicate columns.
- Sources.JoinAllData: SQL leaves the order of joined rows unspecified, and `to_local_iterator` hands them to pandas in whatever order it receives them. The model fixes one order: ledger row by ledger row, then budget match by budget match, then schedule match by schedule match. pandas `"first"` picks the first non-NULL value in that order. So when an entity has several schedule rows, or several budget rows, the model always keeps the first match's CURRENTSTART, CURRENTEND and budget, while the source may keep another's. With at most one schedule row and one budget row per entity (`JoinIsRowForRow`), the choice is unambiguous.
- The order of the FORECASTVALUE rows is not modelled: the SQL result is unordered, and the model emits the joined rows in planned order.
- The planned-curve builder that produces PLANNEDVALUE and the final curve merge are not part of this model.

=== FILE: actual_value.dfy ===
/** `add_cumulative_per_group`: the cumulative actual-cost curve of every
    entity, built from the joined ledger table. */
module ActualValue {
  import opened Common
  import opened Sources
  import Columns

  /** A row of the working frame once ACTUALS_COST is numeric. */
  datatype Row = Row(key: Key, date: int, cost: real,
                     budget: Option<real>, start: Option<int>, end: Option<int>)

  /** A row of the ACTUALVALUE table: the aggregated row and its
      CUMULATIVE_ACTUAL_COST. */
  datatype ActualPoint = ActualPoint(row: Row, cumulative: real)

  /** `pd.to_numeric(errors='coerce').fillna(0)` on one cell. */
  function Coerce(c: CostCell): real
  {
    match c
    case Number(v) => v
    case _ => 0.0
  }

  /** The frame after type conversion, row for row. */
  function Converted(table: seq<JoinedRow>): (s: seq<Row>)
    ensures |s| == |table|
    ensures forall i :: 0 <= i < |table| ==>
      s[i].key == table[i].key && s[i].date == table[i].invoiceDate
      && s[i].budget == table[i].budget && s[i].start == table[i].start && s[i].end == table[i].end
    ensures forall i :: 0 <= i < |table| ==>
      s[i].cost == if table[i].cost.Number? then table[i].cost.amount else 0.0
  {
    seq(|table|, i requires 0 <= i < |table| =>
      Row(table[i].key, table[i].invoiceDate, Coerce(table[i].cost),
          table[i].budget, table[i].start, table[i].end))
  }

  // ---------------------------------------------------------------------
  // Order on (PROJECT_NUMBER, STAGE, SUB_STAGE, INVOICE_DATE)
  // ---------------------------------------------------------------------

  /** `a` sorts strictly before `b`. */
  predicate Before(a: Row, b: Row)
  {
    KeyLess(a.key, b.key) || (a.key == b.key && a.date < b.date)
  }

  /** Row `r` belongs to the (key, INVOICE_DATE) group (k, d). */
  predicate InGroup(r: Row, k: Key, d: int)
  {
    r.key == k && r.date == d
  }

  /** Rows of one group are never strictly ordered. */
  lemma SameGroupUnordered(a: Row, b: Row)
    ensures InGroup(b, a.key, a.date) ==> !Before(a, b) && !Before(b, a)
  {
    KeyLessIrreflexive(a.key);
  }

  lemma BeforeTransitive(a: Row, b: Row, c: Row)
    requires Before(a, b) && Before(b, c)
    ensures Before(a, c)
  {
    if KeyLess(a.key, b.key) && KeyLess(b.key, c.key) {
      KeyLessTransitive(a.key, b.key, c.key);
    }
  }

  lemma BeforeTotal(a: Row, b: Row)
    ensures InGroup(b, a.key, a.date) || Before(a, b) || Before(b, a)
  {
    KeyLessTotal(a.key, b.key);
  }

  lemma BeforeAsymmetric(a: Row, b: Row)
    requires Before(a, b)
    ensures !Before(b, a)
  {
    if KeyLess(a.key, b.key) {
      KeyLessAsymmetric(a.key, b.key);
    } else {
      KeyLessIrreflexive(a.key);
    }
  }

  /** "Not after" is transitive. */
  lemma NotBeforeTransitive(a: Row, b: Row, c: Row)
    requires !Before(b, a) && !Before(c, b)
    ensures !Before(c, a)
  {
    BeforeTotal(a, b);
    if Before(a, b) && Before(c, a) {
      BeforeTransitive(c, a, b);
    }
    if InGroup(b, a.key, a.date) {
      KeyLessIrreflexive(a.key);
    }
  }

  /** Ordered, ties allowed. */
  predicate Sorted(s: seq<Row>)
  {
    forall i, j :: 0 <= i < j < |s| ==> !Before(s[j], s[i])
  }

  /** Ordered without ties: each (key, INVOICE_DATE) at most once, and the
      dates of one entity strictly increasing. */
  predicate StrictlySorted(s: seq<Row>)
  {
    forall i, j :: 0 <= i < j < |s| ==> Before(s[i], s[j])
  }

  // ---------------------------------------------------------------------
  // Sums and selections used to state the contracts
  // ---------------------------------------------------------------------

  /** The rows of group (k, d), in table order. */
  function Select(s: seq<Row>, k: Key, d: int): seq<Row>
  {
    if s == [] then []
    else (if InGroup(s[0], k, d) then [s[0]] else []) + Select(s[1..], k, d)
  }

  /** Some row of `s` is in group (k, d). */
  predicate HasGroup(s: seq<Row>, k: Key, d: int)
  {
    exists i :: 0 <= i < |s| && InGroup(s[i], k, d)
  }

  /** Sum of ACTUALS_COST over `g`. */
  function CostSum(g: seq<Row>): real
  {
    if g == [] then 0.0 else g[0].cost + CostSum(g[1..])
  }

  /** Sum of ACTUALS_COST over the rows of entity `k`. */
  function KeyCost(s: seq<Row>, k: Key): real
  {
    if s == [] then 0.0
    else (if s[0].key == k then s[0].cost else 0.0) + KeyCost(s[1..], k)
  }

  /** Sum of ACTUALS_COST over the rows of entity `k` dated on or before `d`. */
  function CostUpTo(s: seq<Row>, k: Key, d: int): real
  {
    if s == [] then 0.0
    else (if s[0].key == k && s[0].date <= d then s[0].cost else 0.0) + CostUpTo(s[1..], k, d)
  }

  /** The net cost of the ledger rows of entity `k` dated `d`, unparsable
      and missing costs counting as 0. */
  function GroupCost(table: seq<JoinedRow>, k: Key, d: int): real
  {
    CostSum(Select(Converted(table), k, d))
  }

  /** The net cost of all ledger rows of entity `k`. */
  function KeyTotal(table: seq<JoinedRow>, k: Key): real
  {
    KeyCost(Converted(table), k)
  }

  lemma {:induction false} SelectAppend(a: seq<Row>, b: seq<Row>, k: Key, d: int)
    ensures Select(a + b, k, d) == Select(a, k, d) + Select(b, k, d)
  {
    if a != [] {
      assert a + b != [] && (a + b)[0] == a[0] && (a + b)[1..] == a[1..] + b;
      SelectAppend(a[1..], b, k, d);
    } else {
      assert a + b == b;
    }
  }

  lemma {:induction false} SelectNone(s: seq<Row>, k: Key, d: int)
    requires forall j :: 0 <= j < |s| ==> !InGroup(s[j], k, d)
    ensures Select(s, k, d) == []
  {
    if s != [] {
      SelectNone(s[1..], k, d);
    }
  }

  lemma {:induction false} SelectNonEmpty(s: seq<Row>, k: Key, d: int)
    requires Select(s, k, d) != []
    ensures HasGroup(s, k, d)
  {
    if !InGroup(s[0], k, d) {
      SelectNonEmpty(s[1..], k, d);
      var i :| 0 <= i < |s[1..]| && InGroup(s[1..][i], k, d);
      assert InGroup(s[i + 1], k, d);
    }
  }

  lemma {:induction false} KeyCostAppend(a: seq<Row>, b: seq<Row>, k: Key)
    ensures KeyCost(a + b, k) == KeyCost(a, k) + KeyCost(b, k)
  {
    if a != [] {
      assert a + b != [] && (a + b)[0] == a[0] && (a + b)[1..] == a[1..] + b;
      KeyCostAppend(a[1..], b, k);
    } else {
      assert a + b == b;
    }
  }

  lemma {:induction false} KeyCostNone(s: seq<Row>, k: Key)
    requires forall j :: 0 <= j < |s| ==> s[j].key != k
    ensures KeyCost(s, k) == 0.0
  {
    if s != [] {
      KeyCostNone(s[1..], k);
    }
  }

  lemma {:induction false} CostUpToAppend(a: seq<Row>, b: seq<Row>, k: Key, d: int)
    ensures CostUpTo(a + b, k, d) == CostUpTo(a, k, d) + CostUpTo(b, k, d)
  {
    if a != [] {
      assert a + b != [] && (a + b)[0] == a[0] && (a + b)[1..] == a[1..] + b;
      CostUpToAppend(a[1..], b, k, d);
    } else {
      assert a + b == b;
    }
  }

  /** When every row of entity `k` is dated on or before `d`, the sum up to
      `d` is the entity's whole sum; when every one is later, it is 0. */
  lemma {:induction false} CostUpToAgainstKeyCost(s: seq<Row>, k: Key, d: int)
    ensures (forall j :: 0 <= j < |s| && s[j].key == k ==> s[j].date <= d) ==> CostUpTo(s, k, d) == KeyCost(s, k)
    ensures (forall j :: 0 <= j < |s| && s[j].key == k ==> s[j].date > d) ==> CostUpTo(s, k, d) == 0.0
  {
    if s != [] {
      CostUpToAgainstKeyCost(s[1..], k, d);
      assert forall j :: 1 <= j < |s| ==> s[j] == s[1..][j - 1];
    }
  }

  // ---------------------------------------------------------------------
  // Stable sort
  // ---------------------------------------------------------------------

  /** Inserts `r` before the first row not strictly before it, so rows of
      one group keep their relative order. */
  function Insert(r: Row, s: seq<Row>): seq<Row>
  {
    if s == [] || !Before(s[0], r) then [r] + s
    else [s[0]] + Insert(r, s[1..])
  }

  /** Sorting by (key, INVOICE_DATE), stable. */
  function SortRows(s: seq<Row>): seq<Row>
  {
    if s == [] then [] else Insert(s[0], SortRows(s[1..]))
  }

  lemma {:induction false} InsertSorted(r: Row, s: seq<Row>)
    requires Sorted(s)
    ensures multiset(Insert(r, s)) == multiset(s) + multiset{r}
    ensures Sorted(Insert(r, s))
  {
    if s == [] || !Before(s[0], r) {
      forall j | 0 <= j < |s| ensures !Before(s[j], r) {
        if j > 0 {
          NotBeforeTransitive(r, s[0], s[j]);
        }
      }
      PrependSorted(r, s);
    } else {
      var t := Insert(r, s[1..]);
      InsertSorted(r, s[1..]);
      assert s == [s[0]] + s[1..];
      forall j | 0 <= j < |t| ensures !Before(t[j], s[0]) {
        var x := t[j];
        assert x in multiset(t);
        if x == r {
          BeforeAsymmetric(s[0], r);
        } else {
          assert x in multiset(s[1..]);
          var m :| 0 <= m < |s[1..]| && s[1..][m] == x;
          assert s[m + 1] == x;
        }
      }
      PrependSorted(s[0], t);
    }
  }

  /** A row no later row precedes may be put in front of a sorted sequence. */
  lemma PrependSorted(x: Row, t: seq<Row>)
    requires Sorted(t)
    requires forall j :: 0 <= j < |t| ==> !Before(t[j], x)
    ensures Sorted([x] + t)
  {
    assert forall j :: 1 <= j < |[x] + t| ==> ([x] + t)[j] == t[j - 1];
  }

  lemma {:induction false} SortRowsSorted(s: seq<Row>)
    ensures multiset(SortRows(s)) == multiset(s)
    ensures Sorted(SortRows(s))
  {
    if s != [] {
      SortRowsSorted(s[1..]);
      InsertSorted(s[0], SortRows(s[1..]));
      assert s == [s[0]] + s[1..];
    }
  }

  /** Insertion keeps each group's rows in their order. */
  lemma {:induction false} InsertKeepsGroups(r: Row, s: seq<Row>, k: Key, d: int)
    ensures Select(Insert(r, s), k, d) == Select([r] + s, k, d)
    ensures KeyCost(Insert(r, s), k) == KeyCost([r] + s, k)
  {
    if s != [] && Before(s[0], r) {
      InsertKeepsGroups(r, s[1..], k, d);
      assert ([s[0]] + Insert(r, s[1..]))[1..] == Insert(r, s[1..]);
      assert ([r] + s[1..])[1..] == s[1..];
      assert ([r] + s)[1..] == s;
      assert s == [s[0]] + s[1..];
      SameGroupUnordered(r, s[0]);
    }
  }

  /** Sorting is stable: the rows of every group keep their order, so
      per-group and per-entity sums are unchanged. */
  lemma {:induction false} SortKeepsGroups(s: seq<Row>, k: Key, d: int)
    ensures Select(SortRows(s), k, d) == Select(s, k, d)
    ensures KeyCost(SortRows(s), k) == KeyCost(s, k)
  {
    if s != [] {
      SortKeepsGroups(s[1..], k, d);
      InsertKeepsGroups(s[0], SortRows(s[1..]), k, d);
      assert ([s[0]] + SortRows(s[1..]))[1..] == SortRows(s[1..]);
    }
  }

  lemma StrictlySortedIsSorted(s: seq<Row>)
    requires StrictlySorted(s)
    ensures Sorted(s)
  {
    forall i, j | 0 <= i < j < |s| ensures !Before(s[j], s[i]) {
      BeforeAsymmetric(s[i], s[j]);
    }
  }

  /** Sorting rows that are already in order changes nothing. */
  lemma {:induction false} SortSortedIsIdentity(s: seq<Row>)
    requires Sorted(s)
    ensures SortRows(s) == s
  {
    if s != [] {
      SortSortedIsIdentity(s[1..]);
      assert s == [s[0]] + s[1..];
    }
  }

  // ---------------------------------------------------------------------
  // groupby([key, INVOICE_DATE]).agg(sum, first, first, first)
  // ---------------------------------------------------------------------

  /** pandas "first": the first non-null value. */
  function FirstNonNull<T>(a: Option<T>, b: Option<T>): Option<T>
  {
    if a.Some? then a else b
  }

  function FirstBudget(g: seq<Row>): Option<real>
  {
    if g == [] then None else FirstNonNull(g[0].budget, FirstBudget(g[1..]))
  }

  function FirstStart(g: seq<Row>): Option<int>
  {
    if g == [] then None else FirstNonNull(g[0].start, FirstStart(g[1..]))
  }

  function FirstEnd(g: seq<Row>): Option<int>
  {
    if g == [] then None else FirstNonNull(g[0].end, FirstEnd(g[1..]))
  }

  /** The aggregated row of one non-empty group. */
  function Aggregate(g: seq<Row>): Row
    requires g != []
  {
    Row(g[0].key, g[0].date, CostSum(g), FirstBudget(g), FirstStart(g), FirstEnd(g))
  }

  /** Folds row `r` into the aggregate of the rows after it in its group. */
  function Absorb(r: Row, agg: Row): Row
  {
    Row(r.key, r.date, r.cost + agg.cost, FirstNonNull(r.budget, agg.budget),
        FirstNonNull(r.start, agg.start), FirstNonNull(r.end, agg.end))
  }

  /** Merges each run of adjacent rows of one group into one row. */
  function Collapse(s: seq<Row>): seq<Row>
  {
    if s == [] then []
    else
      var rest := Collapse(s[1..]);
      if rest != [] && InGroup(rest[0], s[0].key, s[0].date) then [Absorb(s[0], rest[0])] + rest[1..]
      else [s[0]] + rest
  }

  lemma AggregateCons(r: Row, g: seq<Row>)
    requires g != []
    ensures Aggregate([r] + g) == Absorb(r, Aggregate(g))
  {
    assert ([r] + g)[1..] == g;
  }

  lemma AggregateSingle(r: Row)
    ensures Aggregate([r]) == r
  {
    assert [r][1..] == [];
    assert CostSum([r]) == r.cost + CostSum([]);
    assert FirstBudget([r]) == FirstNonNull(r.budget, None);
    assert FirstStart([r]) == FirstNonNull(r.start, None);
    assert FirstEnd([r]) == FirstNonNull(r.end, None);
  }

  /** A sorted run whose second row starts a new group: every later row
      sorts strictly after the first. */
  lemma LaterRowsAfter(s: seq<Row>)
    requires Sorted(s) && |s| > 1 && !InGroup(s[1], s[0].key, s[0].date)
    ensures forall j :: 1 <= j < |s| ==> Before(s[0], s[j])
  {
    BeforeTotal(s[0], s[1]);
    forall j | 1 < j < |s| ensures Before(s[0], s[j]) {
      BeforeTotal(s[1], s[j]);
      if Before(s[1], s[j]) {
        BeforeTransitive(s[0], s[1], s[j]);
      }
    }
  }

  /** Collapse keeps the first row's group in front, and its groups are
      exactly the groups of its input. */
  lemma CollapseShape(s: seq<Row>)
    ensures s != [] ==> Collapse(s) != [] && InGroup(Collapse(s)[0], s[0].key, s[0].date)
    ensures forall i :: 0 <= i < |Collapse(s)| ==> HasGroup(s, Collapse(s)[i].key, Collapse(s)[i].date)
    ensures forall j :: 0 <= j < |s| ==> HasGroup(Collapse(s), s[j].key, s[j].date)
  {
    CollapseFront(s);
    CollapseInventsNoGroup(s);
    CollapseCoversGroups(s);
  }

  lemma CollapseFront(s: seq<Row>)
    ensures s != [] ==> Collapse(s) != [] && InGroup(Collapse(s)[0], s[0].key, s[0].date)
  {
  }

  /** Every group Collapse leaves is a group of its input. */
  lemma {:induction false} CollapseInventsNoGroup(s: seq<Row>)
    ensures forall i :: 0 <= i < |Collapse(s)| ==> HasGroup(s, Collapse(s)[i].key, Collapse(s)[i].date)
  {
    if s != [] {
      var t, r := s[1..], s[0];
      CollapseInventsNoGroup(t);
      var rest, out := Collapse(t), Collapse(s);
      if rest != [] && InGroup(rest[0], r.key, r.date) {
        assert out == [Absorb(r, rest[0])] + rest[1..];
        forall i | 0 <= i < |out| ensures HasGroup(s, out[i].key, out[i].date) {
          if i == 0 {
            assert InGroup(s[0], out[0].key, out[0].date);
          } else {
            assert out[i] == rest[i];
            var m :| 0 <= m < |t| && InGroup(t[m], rest[i].key, rest[i].date);
            assert InGroup(s[m + 1], out[i].key, out[i].date);
          }
        }
      } else {
        assert out == [r] + rest;
        forall i | 0 <= i < |out| ensures HasGroup(s, out[i].key, out[i].date) {
          if i == 0 {
            assert InGroup(s[0], out[0].key, out[0].date);
          } else {
            assert out[i] == rest[i - 1];
            var m :| 0 <= m < |t| && InGroup(t[m], rest[i - 1].key, rest[i - 1].date);
            assert InGroup(s[m + 1], out[i].key, out[i].date);
          }
        }
      }
    }
  }

  /** Every group of the input is left by Collapse. */
  lemma {:induction false} CollapseCoversGroups(s: seq<Row>)
    ensures forall j :: 0 <= j < |s| ==> HasGroup(Collapse(s), s[j].key, s[j].date)
  {
    if s != [] {
      var t, r := s[1..], s[0];
      CollapseCoversGroups(t);
      CollapseFront(s);
      var rest, out := Collapse(t), Collapse(s);
      if rest != [] && InGroup(rest[0], r.key, r.date) {
        assert out == [Absorb(r, rest[0])] + rest[1..];
        forall j | 0 <= j < |s| ensures HasGroup(out, s[j].key, s[j].date) {
          if j == 0 {
            assert InGroup(out[0], s[0].key, s[0].date);
          } else {
            assert s[j] == t[j - 1];
            var i :| 0 <= i < |rest| && InGroup(rest[i], s[j].key, s[j].date);
            if i == 0 {
              assert InGroup(out[0], s[j].key, s[j].date);
            } else {
              assert out[i] == rest[i];
            }
          }
        }
      } else {
        assert out == [r] + rest;
        forall j | 0 <= j < |s| ensures HasGroup(out, s[j].key, s[j].date) {
          if j == 0 {
            assert InGroup(out[0], s[0].key, s[0].date);
          } else {
            assert s[j] == t[j - 1];
            var i :| 0 <= i < |rest| && InGroup(rest[i], s[j].key, s[j].date);
            assert out[i + 1] == rest[i];
          }
        }
      }
    }
  }

  /** On sorted rows, Collapse leaves each group once, in strict order. */
  lemma {:induction false} CollapseOrdered(s: seq<Row>)
    requires Sorted(s)
    ensures StrictlySorted(Collapse(s))
  {
    if s != [] {
      var t, r := s[1..], s[0];
      assert Sorted(t);
      CollapseOrdered(t);
      var rest := Collapse(t);
      if rest != [] && InGroup(rest[0], r.key, r.date) {
        PrependAbsorbedOrdered(r, rest);
      } else {
        CollapseShape(t);
        if t != [] {
          LaterRowsAfter(s);
        }
        forall i | 0 <= i < |rest| ensures Before(r, rest[i]) {
          var m :| 0 <= m < |t| && InGroup(t[m], rest[i].key, rest[i].date);
          assert Before(r, s[m + 1]);
        }
        PrependOrdered(r, rest);
      }
    }
  }

  /** Absorbing a row into the first group of strictly ordered rows keeps them strictly ordered. */
  lemma PrependAbsorbedOrdered(r: Row, rest: seq<Row>)
    requires StrictlySorted(rest) && rest != [] && InGroup(rest[0], r.key, r.date)
    ensures StrictlySorted([Absorb(r, rest[0])] + rest[1..])
  {
    var out := [Absorb(r, rest[0])] + rest[1..];
    forall i, j | 0 <= i < j < |out| ensures Before(out[i], out[j]) {
      assert out[j] == rest[j] && Before(rest[i], rest[j]);
    }
  }

  /** A row before every row of strictly ordered rows can be put in front. */
  lemma PrependOrdered(r: Row, rest: seq<Row>)
    requires StrictlySorted(rest) && forall i :: 0 <= i < |rest| ==> Before(r, rest[i])
    ensures StrictlySorted([r] + rest)
  {
    var out := [r] + rest;
    forall i, j | 0 <= i < j < |out| ensures Before(out[i], out[j]) {
      assert out[j] == rest[j - 1];
      if i > 0 {
        assert out[i] == rest[i - 1];
      }
    }
  }

  /** On sorted rows, each row Collapse leaves is the aggregate of all the
      rows of its group. */
  lemma {:induction false} CollapseAggregates(s: seq<Row>)
    requires Sorted(s)
    ensures forall i :: 0 <= i < |Collapse(s)| ==>
      Select(s, Collapse(s)[i].key, Collapse(s)[i].date) != []
      && Collapse(s)[i] == Aggregate(Select(s, Collapse(s)[i].key, Collapse(s)[i].date))
  {
    if s != [] {
      var t, r := s[1..], s[0];
      assert s == [r] + t;
      assert Sorted(t);
      CollapseAggregates(t);
      var rest := Collapse(t);
      if rest != [] && InGroup(rest[0], r.key, r.date) {
        CollapseOrdered(t);
        AbsorbKeepsAggregates(r, t, rest);
      } else {
        CollapseShape(t);
        if t != [] {
          LaterRowsAfter(s);
        }
        forall j | 0 <= j < |t| ensures !InGroup(t[j], r.key, r.date) {
          assert Before(s[0], s[j + 1]);
          SameGroupUnordered(r, t[j]);
        }
        NewGroupKeepsAggregates(r, t, rest);
      }
    }
  }

  /** The group of `r` in `[r] + t`: `r` itself when it belongs, then the group in `t`. */
  lemma SelectCons(r: Row, t: seq<Row>, k: Key, d: int)
    ensures Select([r] + t, k, d) == (if InGroup(r, k, d) then [r] else []) + Select(t, k, d)
  {
    assert ([r] + t)[0] == r && ([r] + t)[1..] == t;
  }

  /** Absorbing `r` into the first of the aggregates of `t` gives the
      aggregates of `[r] + t`. */
  lemma AbsorbKeepsAggregates(r: Row, t: seq<Row>, rest: seq<Row>)
    requires rest != [] && InGroup(rest[0], r.key, r.date) && StrictlySorted(rest)
    requires forall i :: 0 <= i < |rest| ==>
      Select(t, rest[i].key, rest[i].date) != [] && rest[i] == Aggregate(Select(t, rest[i].key, rest[i].date))
    ensures var out := [Absorb(r, rest[0])] + rest[1..];
      forall i :: 0 <= i < |out| ==>
        Select([r] + t, out[i].key, out[i].date) != [] && out[i] == Aggregate(Select([r] + t, out[i].key, out[i].date))
  {
    var out := [Absorb(r, rest[0])] + rest[1..];
    forall i | 0 <= i < |out|
      ensures Select([r] + t, out[i].key, out[i].date) != [] && out[i] == Aggregate(Select([r] + t, out[i].key, out[i].date))
    {
      var k, d := out[i].key, out[i].date;
      SelectCons(r, t, k, d);
      if i == 0 {
        assert k == rest[0].key && d == rest[0].date;
        assert rest[0] == Aggregate(Select(t, k, d));
        AggregateCons(r, Select(t, k, d));
        assert out[0] == Absorb(r, rest[0]);
      } else {
        assert out[i] == rest[i] && Before(rest[0], rest[i]);
        assert Select(t, k, d) != [] && rest[i] == Aggregate(Select(t, k, d));
        SameGroupUnordered(rest[0], rest[i]);
        assert !InGroup(r, k, d);
        assert Select([r] + t, k, d) == Select(t, k, d);
      }
    }
  }

  /** Putting `r` in front of the aggregates of rows none of which shares
      its group gives the aggregates of `[r] + t`. */
  lemma NewGroupKeepsAggregates(r: Row, t: seq<Row>, rest: seq<Row>)
    requires forall j :: 0 <= j < |t| ==> !InGroup(t[j], r.key, r.date)
    requires forall i :: 0 <= i < |rest| ==>
      Select(t, rest[i].key, rest[i].date) != [] && rest[i] == Aggregate(Select(t, rest[i].key, rest[i].date))
    ensures var out := [r] + rest;
      forall i :: 0 <= i < |out| ==>
        Select([r] + t, out[i].key, out[i].date) != [] && out[i] == Aggregate(Select([r] + t, out[i].key, out[i].date))
  {
    var out := [r] + rest;
    SelectNone(t, r.key, r.date);
    forall i | 0 <= i < |out|
      ensures Select([r] + t, out[i].key, out[i].date) != [] && out[i] == Aggregate(Select([r] + t, out[i].key, out[i].date))
    {
      var k, d := out[i].key, out[i].date;
      SelectCons(r, t, k, d);
      if i == 0 {
        AggregateSingle(r);
        assert Select([r] + t, k, d) == [r];
        assert out[0] == r;
      } else {
        assert out[i] == rest[i - 1];
        assert Select(t, k, d) != [] && rest[i - 1] == Aggregate(Select(t, k, d));
        assert !InGroup(r, k, d);
        assert Select([r] + t, k, d) == Select(t, k, d);
      }
    }
  }

  lemma {:induction false} CollapseKeyCost(s: seq<Row>, k: Key)
    ensures KeyCost(Collapse(s), k) == KeyCost(s, k)
  {
    if s != [] {
      CollapseKeyCost(s[1..], k);
      var rest := Collapse(s[1..]);
      if rest != [] && InGroup(rest[0], s[0].key, s[0].date) {
        assert rest == [rest[0]] + rest[1..];
        assert ([Absorb(s[0], rest[0])] + rest[1..])[1..] == rest[1..];
      } else {
        assert ([s[0]] + rest)[1..] == rest;
      }
    }
  }

  /** `groupby(["PROJECT_NUMBER", "STAGE", "SUB_STAGE", "INVOICE_DATE"]).agg(...)`:
      one row per group present, in group order, holding the sum of the
      group's costs and the first non-null budget and schedule dates. */
  function GroupBySum(s: seq<Row>): (r: seq<Row>)
    ensures StrictlySorted(r)
    ensures forall i :: 0 <= i < |r| ==>
      Select(s, r[i].key, r[i].date) != [] && r[i] == Aggregate(Select(s, r[i].key, r[i].date))
    ensures forall j :: 0 <= j < |s| ==> HasGroup(r, s[j].key, s[j].date)
    ensures forall k :: KeyCost(r, k) == KeyCost(s, k)
  {
    var sorted := SortRows(s);
    SortRowsSorted(s);
    CollapseShape(sorted);
    CollapseOrdered(sorted);
    CollapseAggregates(sorted);
    forall k, d ensures Select(sorted, k, d) == Select(s, k, d) {
      SortKeepsGroups(s, k, d);
    }
    forall k ensures KeyCost(Collapse(sorted), k) == KeyCost(s, k) {
      SortKeepsGroups(s, k, 0);
      CollapseKeyCost(sorted, k);
    }
    forall j | 0 <= j < |s| ensures HasGroup(Collapse(sorted), s[j].key, s[j].date) {
      assert s[j] in multiset(sorted);
      var m :| 0 <= m < |sorted| && sorted[m] == s[j];
    }
    Collapse(sorted)
  }

  // ---------------------------------------------------------------------
  // pdf[pdf["ACTUALS_COST"] != 0]
  // ---------------------------------------------------------------------

  /** Drops the rows whose (net) cost is exactly 0. */
  function DropZero(s: seq<Row>): (r: seq<Row>)
    ensures forall i :: 0 <= i < |r| ==> r[i].cost != 0.0 && r[i] in s
    ensures forall j :: 0 <= j < |s| && s[j].cost != 0.0 ==> s[j] in r
    ensures StrictlySorted(s) ==> StrictlySorted(r)
    ensures forall k :: KeyCost(r, k) == KeyCost(s, k)
  {
    if s == [] then []
    else
      var rest := DropZero(s[1..]);
      assert forall j :: 1 <= j < |s| ==> s[j] == s[1..][j - 1];
      assert forall x :: x in s[1..] ==> x in s;
      if s[0].cost == 0.0 then rest
      else
        assert StrictlySorted(s) ==> forall i :: 0 <= i < |rest| ==> Before(s[0], rest[i]) by {
          if StrictlySorted(s) {
            forall i | 0 <= i < |rest| ensures Before(s[0], rest[i]) {
              var j :| 0 <= j < |s[1..]| && s[1..][j] == rest[i];
              assert s[j + 1] == rest[i];
            }
          }
        }
        assert ([s[0]] + rest)[1..] == rest;
        [s[0]] + rest
  }

  // ---------------------------------------------------------------------
  // groupby(key)["ACTUALS_COST"].cumsum()
  // ---------------------------------------------------------------------

  /** Running total so far of entity `k`, 0 before its first row. */
  function Running(acc: map<Key, real>, k: Key): real
  {
    if k in acc then acc[k] else 0.0
  }

  /** Walks the rows in order, keeping one running total per entity. */
  function RunningFrom(s: seq<Row>, acc: map<Key, real>): (r: seq<ActualPoint>)
    ensures |r| == |s|
    ensures forall i :: 0 <= i < |s| ==>
      r[i].row == s[i] && r[i].cumulative == Running(acc, s[i].key) + KeyCost(s[..i + 1], s[i].key)
  {
    if s == [] then []
    else
      var c := Running(acc, s[0].key) + s[0].cost;
      var rest := RunningFrom(s[1..], acc[s[0].key := c]);
      RunningStep(s, acc, rest);
      [ActualPoint(s[0], c)] + rest
  }

  /** One step of the walk: the first row's running total is folded into the
      map, so the totals the rest of the walk reports stay as they were. */
  lemma RunningStep(s: seq<Row>, acc: map<Key, real>, rest: seq<ActualPoint>)
    requires s != []
    requires var acc' := acc[s[0].key := Running(acc, s[0].key) + s[0].cost];
      |rest| == |s| - 1
      && forall i :: 0 <= i < |rest| ==>
        rest[i].row == s[1..][i]
        && rest[i].cumulative == Running(acc', s[1..][i].key) + KeyCost(s[1..][..i + 1], s[1..][i].key)
    ensures var r := [ActualPoint(s[0], Running(acc, s[0].key) + s[0].cost)] + rest;
      forall i :: 0 <= i < |s| ==>
        r[i].row == s[i] && r[i].cumulative == Running(acc, s[i].key) + KeyCost(s[..i + 1], s[i].key)
  {
    var r := [ActualPoint(s[0], Running(acc, s[0].key) + s[0].cost)] + rest;
    forall i | 0 <= i < |s|
      ensures r[i].row == s[i] && r[i].cumulative == Running(acc, s[i].key) + KeyCost(s[..i + 1], s[i].key)
    {
      if i == 0 {
        assert s[..1][1..] == [];
      } else {
        assert r[i] == rest[i - 1] && s[i] == s[1..][i - 1];
        assert s[..i + 1][1..] == s[1..][..i];
      }
    }
  }

  /** The CUMULATIVE_ACTUAL_COST column: each row's cost plus the costs of
      the earlier rows of its entity. */
  function CumulativePerGroup(s: seq<Row>): (r: seq<ActualPoint>)
    ensures |r| == |s|
    ensures forall i :: 0 <= i < |s| ==>
      r[i].row == s[i] && r[i].cumulative == KeyCost(s[..i + 1], s[i].key)
  {
    RunningFrom(s, map[])
  }

  /** The rows of the ACTUALVALUE table without their cumulative column. */
  function RowsOf(curve: seq<ActualPoint>): (s: seq<Row>)
    ensures |s| == |curve| && forall i :: 0 <= i < |curve| ==> s[i] == curve[i].row
  {
    seq(|curve|, i requires 0 <= i < |curve| => curve[i].row)
  }

  /** Row `i` is the first (last) row of its entity. */
  predicate FirstOfKey(s: seq<Row>, i: int)
    requires 0 <= i < |s|
  {
    forall j :: 0 <= j < i ==> s[j].key != s[i].key
  }

  predicate LastOfKey(s: seq<Row>, i: int)
    requires 0 <= i < |s|
  {
    forall j :: i < j < |s| ==> s[j].key != s[i].key
  }

  /** Extending a prefix by one row adds that row's cost to its entity. */
  lemma PrefixCostStep(s: seq<Row>, i: int, k: Key)
    requires 0 <= i < |s|
    ensures KeyCost(s[..i + 1], k) == KeyCost(s[..i], k) + (if s[i].key == k then s[i].cost else 0.0)
  {
    assert s[..i + 1] == s[..i] + [s[i]];
    KeyCostAppend(s[..i], [s[i]], k);
    assert [s[i]][1..] == [];
  }

  /** An entity's first row carries its own cost as running total. */
  lemma CumulativeFirstRow(s: seq<Row>)
    ensures forall i :: 0 <= i < |s| && FirstOfKey(s, i) ==>
      CumulativePerGroup(s)[i].cumulative == s[i].cost
  {
    forall i | 0 <= i < |s| && FirstOfKey(s, i) ensures KeyCost(s[..i + 1], s[i].key) == s[i].cost {
      PrefixCostStep(s, i, s[i].key);
      KeyCostNone(s[..i], s[i].key);
    }
  }

  /** Each later row of an entity adds exactly its own cost to the row
      before, so the running total never falls from one row to the next
      exactly when the later cost is non-negative. */
  lemma CumulativeStep(s: seq<Row>)
    ensures forall i :: 0 < i < |s| && s[i - 1].key == s[i].key ==>
      var r := CumulativePerGroup(s);
      r[i].cumulative == r[i - 1].cumulative + s[i].cost
      && (r[i - 1].cumulative <= r[i].cumulative <==> s[i].cost >= 0.0)
  {
    var r := CumulativePerGroup(s);
    forall i | 0 < i < |s| && s[i - 1].key == s[i].key
      ensures r[i].cumulative == r[i - 1].cumulative + s[i].cost
    {
      PrefixCostStep(s, i, s[i].key);
      assert s[..i] == s[..i - 1 + 1];
    }
  }

  /** The last row of an entity carries the entity's whole net cost. */
  lemma CumulativeLastRow(s: seq<Row>)
    ensures forall i :: 0 <= i < |s| && LastOfKey(s, i) ==>
      CumulativePerGroup(s)[i].cumulative == KeyCost(s, s[i].key)
  {
    forall i | 0 <= i < |s| && LastOfKey(s, i) ensures KeyCost(s[..i + 1], s[i].key) == KeyCost(s, s[i].key) {
      assert s == s[..i + 1] + s[i + 1..];
      KeyCostAppend(s[..i + 1], s[i + 1..], s[i].key);
      KeyCostNone(s[i + 1..], s[i].key);
    }
  }

  /** On rows sorted without ties, the running total of a row is the sum of
      the costs of its entity's rows dated on or before it. */
  lemma CumulativeIsCostUpToDate(s: seq<Row>)
    requires StrictlySorted(s)
    ensures forall i :: 0 <= i < |s| ==>
      CumulativePerGroup(s)[i].cumulative == CostUpTo(s, s[i].key, s[i].date)
  {
    forall i | 0 <= i < |s|
      ensures KeyCost(s[..i + 1], s[i].key) == CostUpTo(s, s[i].key, s[i].date)
    {
      var k, d := s[i].key, s[i].date;
      var a, b := s[..i + 1], s[i + 1..];
      assert s == a + b;
      CostUpToAppend(a, b, k, d);
      forall j | 0 <= j < |a| && a[j].key == k ensures a[j].date <= d {
        if j < i {
          assert Before(s[j], s[i]);
          KeyLessIrreflexive(k);
        }
      }
      forall j | 0 <= j < |b| && b[j].key == k ensures b[j].date > d {
        assert b[j] == s[i + 1 + j] && Before(s[i], s[i + 1 + j]);
        KeyLessIrreflexive(k);
      }
      CostUpToAgainstKeyCost(a, k, d);
      CostUpToAgainstKeyCost(b, k, d);
    }
  }

  // ---------------------------------------------------------------------
  // The whole function
  // ---------------------------------------------------------------------

  /** What `add_cumulative_per_group` yields: the ACTUALVALUE rows, or the
      KeyError pandas raises when a column it reads is absent. */
  datatype Outcome = KeyError | Curve(points: seq<ActualPoint>)

  /** Some column read by the conversion, the group-by or the aggregation is
      absent from the header. */
  predicate MissingColumn(header: seq<string>)
  {
    exists t :: t in Columns.CanonicalColumns && t !in header
  }

  /** `add_cumulative_per_group`: build the frame, normalise its header,
      convert the costs, sum each (key, INVOICE_DATE) group, drop the groups
      that net to 0, sort, and attach each entity's running total. A frame
      built from no records has no columns at all. */
  method AddCumulativePerGroup(columns: seq<string>, table: seq<JoinedRow>)
    returns (header: seq<string>, result: Outcome)
    ensures table == [] ==> header == []
    ensures table != [] ==>
      |header| == |columns| && forall i :: 0 <= i < |columns| ==> header[i] == Columns.CanonicalName(columns[i])
    ensures result.KeyError? <==> MissingColumn(header)
    ensures result.Curve? ==> StrictlySorted(RowsOf(result.points))
    ensures result.Curve? ==> result.points == CumulativePerGroup(RowsOf(result.points))
    ensures result.Curve? ==> forall i :: 0 <= i < |result.points| ==>
      var r := result.points[i].row;
      r.cost != 0.0 && r.cost == GroupCost(table, r.key, r.date)
      && Select(Converted(table), r.key, r.date) != []
      && r == Aggregate(Select(Converted(table), r.key, r.date))
    ensures result.Curve? ==> forall k, d :: GroupCost(table, k, d) != 0.0 ==> HasGroup(RowsOf(result.points), k, d)
    ensures result.Curve? ==> forall i :: 0 <= i < |result.points| ==>
      result.points[i].cumulative == CostUpTo(RowsOf(result.points), result.points[i].row.key, result.points[i].row.date)
    ensures result.Curve? ==> forall i :: 0 <= i < |result.points| && LastOfKey(RowsOf(result.points), i) ==>
      result.points[i].cumulative == KeyTotal(table, result.points[i].row.key)
  {
    if table == [] {
      header := [];
      assert "INVOICE_DATE" in Columns.CanonicalColumns;
      return header, KeyError;
    }
    header := Columns.NormaliseColumns(columns);
    if exists t :: t in Columns.CanonicalColumns && t !in header {
      return header, KeyError;
    }
    var pdf := Converted(table);
    ghost var input := pdf;
    pdf := GroupBySum(pdf);
    pdf := DropZero(pdf);
    NonZeroGroups(input, pdf);
    StrictlySortedIsSorted(pdf);
    SortSortedIsIdentity(pdf);
    pdf := SortRows(pdf);
    var curve := CumulativePerGroup(pdf);
    assert RowsOf(curve) == pdf;
    CumulativeIsCostUpToDate(pdf);
    CumulativeLastRow(pdf);
    result := Curve(curve);
  }

  /** The groups left after dropping those that net to 0: in strict order,
      each the aggregate of its ledger rows, every group with a non-zero
      net cost present, and each entity's net cost unchanged. */
  lemma NonZeroGroups(input: seq<Row>, rows: seq<Row>)
    requires rows == DropZero(GroupBySum(input))
    ensures StrictlySorted(rows)
    ensures forall i :: 0 <= i < |rows| ==>
      rows[i].cost != 0.0 && Select(input, rows[i].key, rows[i].date) != []
      && rows[i] == Aggregate(Select(input, rows[i].key, rows[i].date))
    ensures forall k, d :: CostSum(Select(input, k, d)) != 0.0 ==> HasGroup(rows, k, d)
    ensures forall k :: KeyCost(rows, k) == KeyCost(input, k)
  {
    var grouped := GroupBySum(input);
    forall i | 0 <= i < |rows|
      ensures Select(input, rows[i].key, rows[i].date) != [] && rows[i] == Aggregate(Select(input, rows[i].key, rows[i].date))
    {
      var j :| 0 <= j < |grouped| && grouped[j] == rows[i];
    }
    forall k, d | CostSum(Select(input, k, d)) != 0.0 ensures HasGroup(rows, k, d) {
      SelectNonEmpty(input, k, d);
      var j :| 0 <= j < |input| && InGroup(input[j], k, d);
      var m :| 0 <= m < |grouped| && InGroup(grouped[m], k, d);
      assert grouped[m] in rows;
      var i :| 0 <= i < |rows| && rows[i] == grouped[m];
      assert InGroup(rows[i], k, d);
    }
  }

  /** Unparsable or missing costs contribute nothing: adding such a ledger
      row changes no group's and no entity's net cost. */
  lemma InvalidCostsContributeNothing(table: seq<JoinedRow>, row: JoinedRow)
    requires !row.cost.Number?
    ensures forall k, d :: GroupCost(table + [row], k, d) == GroupCost(table, k, d)
    ensures forall k :: KeyTotal(table + [row], k) == KeyTotal(table, k)
  {
    var r := Row(row.key, row.invoiceDate, 0.0, row.budget, row.start, row.end);
    assert Converted(table + [row]) == Converted(table) + [r];
    forall k, d ensures GroupCost(table + [row], k, d) == GroupCost(table, k, d) {
      SelectAppend(Converted(table), [r], k, d);
      CostSumAppend(Select(Converted(table), k, d), Select([r], k, d));
    }
    forall k ensures KeyTotal(table + [row], k) == KeyTotal(table, k) {
      KeyCostAppend(Converted(table), [r], k);
    }
  }

  lemma {:induction false} CostSumAppend(a: seq<Row>, b: seq<Row>)
    ensures CostSum(a + b) == CostSum(a) + CostSum(b)
  {
    if a != [] {
      assert a + b != [] && (a + b)[0] == a[0] && (a + b)[1..] == a[1..] + b;
      CostSumAppend(a[1..], b);
    } else {
      assert a + b == b;
    }
  }
}

=== FILE: columns.dfy ===
/** Column-name normalisation of `add_cumulative_per_group`: every column
    whose name contains one of the canonical names is renamed to it, the
    tests being tried in a fixed order and the first that matches winning. */
module Columns {
  import opened Common

  /** `p` occurs in `s` starting at position `i`. */
  predicate OccursAt(s: string, p: string, i: nat)
  {
    i + |p| <= |s| && s[i..i + |p|] == p
  }

  /** `p in s` for Python strings: `p` occurs in `s` at some position. */
  predicate Contains(s: string, p: string)
  {
    exists i: nat :: i <= |s| && OccursAt(s, p, i)
  }

  /** A name lacking one of the characters of `p` does not contain `p`. */
  lemma MissingCharNotContained(s: string, p: string, j: nat)
    requires j < |p|
    requires forall i :: 0 <= i < |s| ==> s[i] != p[j]
    ensures !Contains(s, p)
  {
    forall i: nat | i <= |s| && OccursAt(s, p, i) ensures s[i + j] == p[j] {
      assert s[i..i + |p|][j] == s[i + j];
    }
  }

  const CanonicalColumns: seq<string> :=
    ["PROJECT_NUMBER", "STAGE", "SUB_STAGE", "INVOICE_DATE", "ACTUALS_COST",
     "BUDGET_CURRENT_APPROVED", "CURRENTSTART", "CURRENTEND"]

  /** The test of the renaming loop for canonical name `t`: the name
      contains `t`, and for STAGE it must moreover not contain SUB. */
  predicate Matches(name: string, t: string)
  {
    Contains(name, t) && (t == "STAGE" ==> !Contains(name, "SUB"))
  }

  /** The canonical name a column is renamed to, or None when the column
      matches no test and keeps its name. The tests are tried in the order
      of `CanonicalColumns` and the first that matches wins. */
  function ColumnTarget(name: string): (r: Option<string>)
    ensures r.Some? <==> exists i :: 0 <= i < |CanonicalColumns| && Matches(name, CanonicalColumns[i])
    ensures forall i ::
      (0 <= i < |CanonicalColumns| && Matches(name, CanonicalColumns[i])
       && forall j :: 0 <= j < i ==> !Matches(name, CanonicalColumns[j]))
      ==> r == Some(CanonicalColumns[i])
    ensures r.Some? ==> r.value in CanonicalColumns && Contains(name, r.value)
  {
    assert Matches(name, CanonicalColumns[0]) == Contains(name, "PROJECT_NUMBER");
    assert Matches(name, CanonicalColumns[1]) == (Contains(name, "STAGE") && !Contains(name, "SUB"));
    assert Matches(name, CanonicalColumns[2]) == Contains(name, "SUB_STAGE");
    assert Matches(name, CanonicalColumns[3]) == Contains(name, "INVOICE_DATE");
    assert Matches(name, CanonicalColumns[4]) == Contains(name, "ACTUALS_COST");
    assert Matches(name, CanonicalColumns[5]) == Contains(name, "BUDGET_CURRENT_APPROVED");
    assert Matches(name, CanonicalColumns[6]) == Contains(name, "CURRENTSTART");
    assert Matches(name, CanonicalColumns[7]) == Contains(name, "CURRENTEND");
    if Contains(name, "PROJECT_NUMBER") then Some("PROJECT_NUMBER")
    else if Contains(name, "STAGE") && !Contains(name, "SUB") then Some("STAGE")
    else if Contains(name, "SUB_STAGE") then Some("SUB_STAGE")
    else if Contains(name, "INVOICE_DATE") then Some("INVOICE_DATE")
    else if Contains(name, "ACTUALS_COST") then Some("ACTUALS_COST")
    else if Contains(name, "BUDGET_CURRENT_APPROVED") then Some("BUDGET_CURRENT_APPROVED")
    else if Contains(name, "CURRENTSTART") then Some("CURRENTSTART")
    else if Contains(name, "CURRENTEND") then Some("CURRENTEND")
    else None
  }

  /** The name a column carries after renaming. */
  function CanonicalName(name: string): string
  {
    match ColumnTarget(name)
    case Some(t) => t
    case None => name
  }

  /** Builds `col_map` entry by entry: only the columns some test matches
      get an entry, mapped to their canonical name. */
  method BuildColumnMap(columns: seq<string>) returns (colMap: map<string, string>)
    ensures forall c :: c in colMap <==> c in columns && ColumnTarget(c).Some?
    ensures forall c :: c in colMap ==> ColumnTarget(c) == Some(colMap[c])
  {
    colMap := map[];
    var i := 0;
    while i < |columns|
      invariant 0 <= i <= |columns|
      invariant forall c :: c in colMap <==> c in columns[..i] && ColumnTarget(c).Some?
      invariant forall c :: c in colMap ==> ColumnTarget(c) == Some(colMap[c])
    {
      var name := columns[i];
      match ColumnTarget(name) {
        case Some(t) => colMap := colMap[name := t];
        case None =>
      }
      assert columns[..i + 1] == columns[..i] + [name];
      i := i + 1;
    }
    assert columns[..i] == columns;
  }

  /** `rename(columns=col_map)`: mapped columns take their new name, the
      others keep theirs. */
  function Renamed(columns: seq<string>, colMap: map<string, string>): (header: seq<string>)
    ensures |header| == |columns|
  {
    seq(|columns|, i requires 0 <= i < |columns| =>
      if columns[i] in colMap then colMap[columns[i]] else columns[i])
  }

  /** The column loop followed by the in-place rename of the frame's header. */
  method NormaliseColumns(columns: seq<string>) returns (header: seq<string>)
    ensures |header| == |columns|
    ensures forall i :: 0 <= i < |columns| ==> header[i] == CanonicalName(columns[i])
  {
    var colMap := BuildColumnMap(columns);
    header := Renamed(columns, colMap);
  }

  /** Each canonical name is its own rename target: the order of the tests
      never sends one canonical name (in particular SUB_STAGE, which also
      contains STAGE) to another. */
  lemma CanonicalFixedPoint(t: string)
    requires t in CanonicalColumns
    ensures ColumnTarget(t) == Some(t)
  {
    if t == "PROJECT_NUMBER" {
      ProjectNumberFixed();
    } else if t == "STAGE" {
      StageFixed();
    } else if t == "SUB_STAGE" {
      SubStageFixed();
    } else if t == "INVOICE_DATE" {
      InvoiceDateFixed();
    } else if t == "ACTUALS_COST" {
      ActualsCostFixed();
    } else if t == "BUDGET_CURRENT_APPROVED" {
      BudgetFixed();
    } else if t == "CURRENTSTART" {
      CurrentStartFixed();
    } else if t == "CURRENTEND" {
      CurrentEndFixed();
    }
  }

  lemma ProjectNumberFixed()
    ensures ColumnTarget("PROJECT_NUMBER") == Some("PROJECT_NUMBER")
  {
    assert OccursAt("PROJECT_NUMBER", "PROJECT_NUMBER", 0);
  }

  lemma StageFixed()
    ensures ColumnTarget("STAGE") == Some("STAGE")
  {
    assert OccursAt("STAGE", "STAGE", 0);
    MissingCharNotContained("STAGE", "SUB", 1);
  }

  lemma SubStageFixed()
    ensures ColumnTarget("SUB_STAGE") == Some("SUB_STAGE")
  {
    assert OccursAt("SUB_STAGE", "SUB_STAGE", 0);
    assert OccursAt("SUB_STAGE", "SUB", 0);
  }

  lemma InvoiceDateFixed()
    ensures ColumnTarget("INVOICE_DATE") == Some("INVOICE_DATE")
  {
    assert OccursAt("INVOICE_DATE", "INVOICE_DATE", 0);
    MissingCharNotContained("INVOICE_DATE", "STAGE", 0);
    MissingCharNotContained("INVOICE_DATE", "SUB_STAGE", 0);
  }

  lemma ActualsCostFixed()
    ensures ColumnTarget("ACTUALS_COST") == Some("ACTUALS_COST")
  {
    assert OccursAt("ACTUALS_COST", "ACTUALS_COST", 0);
    MissingCharNotContained("ACTUALS_COST", "STAGE", 3);
    MissingCharNotContained("ACTUALS_COST", "SUB_STAGE", 7);
    MissingCharNotContained("ACTUALS_COST", "INVOICE_DATE", 0);
  }

  lemma BudgetFixed()
    ensures ColumnTarget("BUDGET_CURRENT_APPROVED") == Some("BUDGET_CURRENT_APPROVED")
  {
    assert OccursAt("BUDGET_CURRENT_APPROVED", "BUDGET_CURRENT_APPROVED", 0);
    MissingCharNotContained("BUDGET_CURRENT_APPROVED", "PROJECT_NUMBER", 3);
    MissingCharNotContained("BUDGET_CURRENT_APPROVED", "STAGE", 0);
    MissingCharNotContained("BUDGET_CURRENT_APPROVED", "SUB_STAGE", 0);
    MissingCharNotContained("BUDGET_CURRENT_APPROVED", "INVOICE_DATE", 0);
    MissingCharNotContained("BUDGET_CURRENT_APPROVED", "ACTUALS_COST", 6);
  }

  lemma CurrentStartFixed()
    ensures ColumnTarget("CURRENTSTART") == Some("CURRENTSTART")
  {
    assert OccursAt("CURRENTSTART", "CURRENTSTART", 0);
    MissingCharNotContained("CURRENTSTART", "STAGE", 3);
    MissingCharNotContained("CURRENTSTART", "SUB_STAGE", 7);
    MissingCharNotContained("CURRENTSTART", "INVOICE_DATE", 0);
    MissingCharNotContained("CURRENTSTART", "ACTUALS_COST", 5);
  }

  lemma CurrentEndFixed()
    ensures ColumnTarget("CURRENTEND") == Some("CURRENTEND")
  {
    assert OccursAt("CURRENTEND", "CURRENTEND", 0);
    MissingCharNotContained("CURRENTEND", "STAGE", 0);
    MissingCharNotContained("CURRENTEND", "SUB_STAGE", 0);
  }

  /** Renaming twice renames nothing more than renaming once. */
  lemma CanonicalNameIdempotent(name: string)
    ensures CanonicalName(CanonicalName(name)) == CanonicalName(name)
  {
    if ColumnTarget(name).Some? {
      CanonicalFixedPoint(ColumnTarget(name).value);
    }
  }

  /** Normalising an already normalised header changes nothing. */
  lemma NormaliseColumnsIdempotent(columns: seq<string>)
    ensures forall i :: 0 <= i < |columns| ==>
      CanonicalName(CanonicalName(columns[i])) == CanonicalName(columns[i])
  {
    forall i | 0 <= i < |columns| {
      CanonicalNameIdempotent(columns[i]);
    }
  }
}

=== FILE: common.dfy ===
/** Shared vocabulary of the cash-flow curves: the entity key, optional
    (SQL NULL) values, and the lexicographic order the tables are sorted in. */
module Common {

  /** A nullable cell: `None` stands for SQL NULL / pandas NaN. */
  datatype Option<T> = None | Some(value: T)

  /** The entity key (PROJECT_NUMBER, STAGE, SUB_STAGE). */
  datatype Key = Key(project: string, stage: string, subStage: string)

  /** Lexicographic order on strings, comparing characters by code point
      (the order Python and pandas sort `str` values in). */
  predicate StrLess(a: string, b: string)
  {
    if a == [] then b != []
    else if b == [] then false
    else a[0] < b[0] || (a[0] == b[0] && StrLess(a[1..], b[1..]))
  }

  lemma {:induction false} StrLessIrreflexive(a: string)
    ensures !StrLess(a, a)
  {
    if a != [] {
      StrLessIrreflexive(a[1..]);
    }
  }

  lemma {:induction false} StrLessTransitive(a: string, b: string, c: string)
    requires StrLess(a, b) && StrLess(b, c)
    ensures StrLess(a, c)
  {
    if a != [] && b != [] && c != [] && a[0] == b[0] == c[0] {
      StrLessTransitive(a[1..], b[1..], c[1..]);
    }
  }

  lemma {:induction false} StrLessTotal(a: string, b: string)
    ensures a == b || StrLess(a, b) || StrLess(b, a)
  {
    if a != [] && b != [] && a[0] == b[0] {
      StrLessTotal(a[1..], b[1..]);
      if a[1..] == b[1..] {
        assert a == [a[0]] + a[1..] && b == [b[0]] + b[1..];
      }
    }
  }

  lemma {:induction false} StrLessAsymmetric(a: string, b: string)
    requires StrLess(a, b)
    ensures !StrLess(b, a)
  {
    if a != [] && b != [] && a[0] == b[0] {
      StrLessAsymmetric(a[1..], b[1..]);
    }
  }

  /** The order of `sort_values(by=["PROJECT_NUMBER", "STAGE", "SUB_STAGE", ...])`
      restricted to the key columns. */
  predicate KeyLess(x: Key, y: Key)
  {
    StrLess(x.project, y.project)
    || (x.project == y.project && StrLess(x.stage, y.stage))
    || (x.project == y.project && x.stage == y.stage && StrLess(x.subStage, y.subStage))
  }

  lemma KeyLessIrreflexive(x: Key)
    ensures !KeyLess(x, x)
  {
    StrLessIrreflexive(x.project);
    StrLessIrreflexive(x.stage);
    StrLessIrreflexive(x.subStage);
  }

  lemma KeyLessTransitive(x: Key, y: Key, z: Key)
    requires KeyLess(x, y) && KeyLess(y, z)
    ensures KeyLess(x, z)
  {
    if StrLess(x.project, y.project) && StrLess(y.project, z.project) {
      StrLessTransitive(x.project, y.project, z.project);
    }
    if x.project == y.project == z.project {
      if StrLess(x.stage, y.stage) && StrLess(y.stage, z.stage) {
        StrLessTransitive(x.stage, y.stage, z.stage);
      }
      if x.stage == y.stage == z.stage && StrLess(x.subStage, y.subStage) && StrLess(y.subStage, z.subStage) {
        StrLessTransitive(x.subStage, y.subStage, z.subStage);
      }
    }
  }

  lemma KeyLessTotal(x: Key, y: Key)
    ensures x == y || KeyLess(x, y) || KeyLess(y, x)
  {
    StrLessTotal(x.project, y.project);
    StrLessTotal(x.stage, y.stage);
    StrLessTotal(x.subStage, y.subStage);
  }

  lemma KeyLessAsymmetric(x: Key, y: Key)
    requires KeyLess(x, y)
    ensures !KeyLess(y, x)
  {
    if StrLess(x.project, y.project) {
      StrLessAsymmetric(x.project, y.project);
    } else {
      StrLessIrreflexive(x.project);
      if StrLess(x.stage, y.stage) {
        StrLessAsymmetric(x.stage, y.stage);
      } else {
        StrLessIrreflexive(x.stage);
        StrLessAsymmetric(x.subStage, y.subStage);
      }
    }
  }
}

=== FILE: forecast_value.dfy ===
/** `create_forecast_curve`: spreads each entity's remaining budget over its
    future planned curve and stacks the result on the entity's last
    cumulative actual cost. */
module ForecastValue {
  import opened Common
  import opened ActualValue

  /** A row of the PLANNEDVALUE table. */
  datatype PlannedRow = PlannedRow(key: Key, date: int, value: real)

  /** A row of the FORECASTVALUE table; `None` is SQL NULL. */
  datatype ForecastRow = ForecastRow(key: Key, date: int, forecastValue: Option<real>, finalValue: Option<real>)

  // ---------------------------------------------------------------------
  // Step 1: per entity, TOTAL_ACTUAL_COST and BUDGET_CURRENT_APPROVED
  // ---------------------------------------------------------------------

  /** The entity has a row in ACTUALVALUE, so it has a summary row and a
      latest-cumulative row. */
  predicate HasActuals(actual: seq<ActualPoint>, k: Key)
  {
    exists i :: 0 <= i < |actual| && actual[i].row.key == k
  }

  /** `SUM(ACTUALS_COST)` over the entity's rows. */
  function TotalActualCost(actual: seq<ActualPoint>, k: Key): real
  {
    KeyCost(RowsOf(actual), k)
  }

  /** SQL MAX of two nullable values: NULLs are skipped. */
  function SqlMax(a: Option<real>, b: Option<real>): Option<real>
  {
    if a.None? then b
    else if b.None? then a
    else if a.value >= b.value then a
    else b
  }

  /** Some row of the entity carries budget `b`. */
  predicate BudgetAttained(actual: seq<ActualPoint>, k: Key, b: real)
  {
    exists i :: 0 <= i < |actual| && actual[i].row.key == k && actual[i].row.budget == Some(b)
  }

  /** `MAX(BUDGET_CURRENT_APPROVED)` over the entity's rows: NULL exactly
      when every one is NULL, otherwise the largest value present. */
  function MaxBudget(actual: seq<ActualPoint>, k: Key): (m: Option<real>)
    ensures m.None? <==> forall i :: 0 <= i < |actual| && actual[i].row.key == k ==> actual[i].row.budget.None?
    ensures m.Some? ==> BudgetAttained(actual, k, m.value)
    ensures forall i :: 0 <= i < |actual| && actual[i].row.key == k && actual[i].row.budget.Some? ==>
      m.Some? && actual[i].row.budget.value <= m.value
  {
    if actual == [] then None
    else
      var rest := MaxBudget(actual[1..], k);
      var head := if actual[0].row.key == k then actual[0].row.budget else None;
      assert forall i :: 1 <= i < |actual| ==> actual[i] == actual[1..][i - 1];
      assert rest.Some? ==> BudgetAttained(actual, k, rest.value) by {
        if rest.Some? {
          var j :| 0 <= j < |actual[1..]| && actual[1..][j].row.key == k && actual[1..][j].row.budget == Some(rest.value);
          assert actual[j + 1] == actual[1..][j];
        }
      }
      SqlMax(head, rest)
  }

  // ---------------------------------------------------------------------
  // Step 2: per entity, the row with the latest INVOICE_DATE
  // ---------------------------------------------------------------------

  /** `row_number() over (partition by key order by INVOICE_DATE desc) == 1`:
      a row of the entity no other row of which is dated later. Among rows
      tied on the latest date the first in table order is taken. */
  function LatestRow(actual: seq<ActualPoint>, k: Key): (r: Option<ActualPoint>)
    ensures r.Some? <==> HasActuals(actual, k)
    ensures r.Some? ==> r.value in actual && r.value.row.key == k
    ensures r.Some? ==> forall i :: 0 <= i < |actual| && actual[i].row.key == k ==> actual[i].row.date <= r.value.row.date
  {
    if actual == [] then None
    else
      var rest := LatestRow(actual[1..], k);
      assert forall i :: 1 <= i < |actual| ==> actual[i] == actual[1..][i - 1];
      assert HasActuals(actual[1..], k) ==> HasActuals(actual, k) by {
        if HasActuals(actual[1..], k) {
          var j :| 0 <= j < |actual[1..]| && actual[1..][j].row.key == k;
          assert actual[j + 1].row.key == k;
        }
      }
      if actual[0].row.key != k then rest
      else if rest.Some? && rest.value.row.date > actual[0].row.date then rest
      else Some(actual[0])
  }

  /** The entities present in ACTUALVALUE. */
  function KeysOf(actual: seq<ActualPoint>): set<Key>
  {
    set i | 0 <= i < |actual| :: actual[i].row.key
  }

  /** One row of `actuals_summary` joined with the entity's row of
      `last_cumulative_df`. */
  datatype EntitySummary = EntitySummary(totalActualCost: real, budget: Option<real>, lastCumulative: real)

  /** Steps 1 and 2 as one table keyed by entity: exactly the entities with
      actuals have a row. */
  function Summaries(actual: seq<ActualPoint>): (sums: map<Key, EntitySummary>)
    ensures forall k :: k in sums <==> HasActuals(actual, k)
  {
    map k | k in KeysOf(actual) ::
      EntitySummary(TotalActualCost(actual, k), MaxBudget(actual, k), LatestRow(actual, k).value.cumulative)
  }

  // ---------------------------------------------------------------------
  // Step 3: planned rows after the as-of date, joined to the summaries
  // ---------------------------------------------------------------------

  /** Planned rows dated strictly after `asOf` whose entity has a summary
      row; the inner joins drop every other entity. */
  function FuturePlanned(planned: seq<PlannedRow>, sums: map<Key, EntitySummary>, asOf: int): (fut: seq<PlannedRow>)
    ensures |fut| <= |planned|
    ensures forall p :: p in fut <==> p in planned && p.date > asOf && p.key in sums
    ensures forall p :: multiset(fut)[p] == if p.date > asOf && p.key in sums then multiset(planned)[p] else 0
  {
    if planned == [] then []
    else
      var rest := FuturePlanned(planned[1..], sums, asOf);
      assert planned == [planned[0]] + planned[1..];
      assert forall p :: p in planned <==> p == planned[0] || p in planned[1..];
      if planned[0].date > asOf && planned[0].key in sums then [planned[0]] + rest else rest
  }

  // ---------------------------------------------------------------------
  // Step 4: FUTURE_PLANNED_TOTAL
  // ---------------------------------------------------------------------

  /** Sum of PLANNED_CURVE_VALUE over the entity's rows. */
  function FutureTotal(rows: seq<PlannedRow>, k: Key): real
  {
    if rows == [] then 0.0
    else (if rows[0].key == k then rows[0].value else 0.0) + FutureTotal(rows[1..], k)
  }

  /** Sum of PLANNED_CURVE_VALUE over the entity's rows dated on or before `d`. */
  function PlannedUpTo(rows: seq<PlannedRow>, k: Key, d: int): real
  {
    if rows == [] then 0.0
    else (if rows[0].key == k && rows[0].date <= d then rows[0].value else 0.0) + PlannedUpTo(rows[1..], k, d)
  }

  // ---------------------------------------------------------------------
  // Step 5: PLANNED_PERCENT, REMAINING_AMOUNT, FORECAST_VALUE
  // ---------------------------------------------------------------------

  /** `when(total == 0, 0).otherwise(value / total)`. */
  function PlannedPercent(value: real, total: real): real
  {
    if total == 0.0 then 0.0 else value / total
  }

  /** `greatest(0, budget - total)`: NULL when the budget is NULL, otherwise
      the larger of 0 and the unspent budget. */
  function RemainingAmount(budget: Option<real>, totalActual: real): (r: Option<real>)
    ensures r.Some? <==> budget.Some?
    ensures r.Some? ==> r.value >= 0.0 && r.value >= budget.value - totalActual
    ensures r.Some? ==> r.value == 0.0 || r.value == budget.value - totalActual
  {
    match budget
    case None => None
    case Some(b) => Some(if b - totalActual > 0.0 then b - totalActual else 0.0)
  }

  /** The entity's REMAINING_AMOUNT. */
  function EntityRemaining(actual: seq<ActualPoint>, k: Key): Option<real>
  {
    RemainingAmount(MaxBudget(actual, k), TotalActualCost(actual, k))
  }

  // ---------------------------------------------------------------------
  // Step 6: CUM_FORECAST and FORECAST_FINAL_VALUE
  // ---------------------------------------------------------------------

  /** `SUM(FORECAST_VALUE) over (partition by key order by DATE)`: the
      default window frame reaches every row of the entity dated on or
      before `d`, rows tied on DATE included. */
  function CumForecast(rows: seq<PlannedRow>, k: Key, d: int, total: real, remaining: real): real
  {
    if rows == [] then 0.0
    else
      (if rows[0].key == k && rows[0].date <= d then PlannedPercent(rows[0].value, total) * remaining else 0.0)
      + CumForecast(rows[1..], k, d, total, remaining)
  }

  /** The output row of one joined planned row, given its entity's summary. */
  function ForecastFor(p: PlannedRow, fut: seq<PlannedRow>, s: EntitySummary): (f: ForecastRow)
    ensures f.key == p.key && f.date == p.date
    ensures f.forecastValue.Some? <==> s.budget.Some?
    ensures f.finalValue.Some? <==> s.budget.Some?
  {
    var total := FutureTotal(fut, p.key);
    match RemainingAmount(s.budget, s.totalActualCost)
    case None => ForecastRow(p.key, p.date, None, None)
    case Some(rem) =>
      ForecastRow(p.key, p.date, Some(PlannedPercent(p.value, total) * rem),
                  Some(CumForecast(fut, p.key, p.date, total, rem) + s.lastCumulative))
  }

  /** The output rows of `rows`, each computed against the whole joined set `fut`. */
  function ForecastRows(rows: seq<PlannedRow>, fut: seq<PlannedRow>, sums: map<Key, EntitySummary>): (out: seq<ForecastRow>)
    requires forall p :: p in rows ==> p.key in sums
    ensures |out| == |rows|
    ensures forall i :: 0 <= i < |rows| ==> out[i] == ForecastFor(rows[i], fut, sums[rows[i].key])
  {
    if rows == [] then []
    else [ForecastFor(rows[0], fut, sums[rows[0].key])] + ForecastRows(rows[1..], fut, sums)
  }

  /** `create_forecast_curve`: one FORECASTVALUE row per planned row dated
      after `asOf` whose entity has actuals, NULL-valued exactly when the
      entity's budget is NULL. */
  function CreateForecastCurve(planned: seq<PlannedRow>, actual: seq<ActualPoint>, asOf: int): (out: seq<ForecastRow>)
    ensures |out| <= |planned|
    ensures |out| == |FuturePlanned(planned, Summaries(actual), asOf)|
    ensures forall i :: 0 <= i < |out| ==>
      out[i].date > asOf && HasActuals(actual, out[i].key)
      && (out[i].forecastValue.Some? <==> MaxBudget(actual, out[i].key).Some?)
      && (out[i].finalValue.Some? <==> MaxBudget(actual, out[i].key).Some?)
  {
    var sums := Summaries(actual);
    var fut := FuturePlanned(planned, sums, asOf);
    SummaryBudgets(actual);
    ForecastRowsOfFuture(fut, sums, actual, asOf);
    ForecastRows(fut, fut, sums)
  }

  /** Each summary row holds its entity's MAX budget. */
  lemma SummaryBudgets(actual: seq<ActualPoint>)
    ensures forall k :: k in Summaries(actual) ==> Summaries(actual)[k].budget == MaxBudget(actual, k)
  {
  }

  /** The output rows of future rows of entities with actuals are future,
      belong to such entities, and are NULL exactly when the budget is. */
  lemma {:induction false} ForecastRowsOfFuture(fut: seq<PlannedRow>, sums: map<Key, EntitySummary>,
                                               actual: seq<ActualPoint>, asOf: int)
    requires forall p :: p in fut ==> p.date > asOf && p.key in sums
    requires forall k :: k in sums ==> HasActuals(actual, k) && sums[k].budget == MaxBudget(actual, k)
    ensures var out := ForecastRows(fut, fut, sums);
      forall i :: 0 <= i < |out| ==>
        out[i].date > asOf && HasActuals(actual, out[i].key)
        && (out[i].forecastValue.Some? <==> MaxBudget(actual, out[i].key).Some?)
        && (out[i].finalValue.Some? <==> MaxBudget(actual, out[i].key).Some?)
  {
    var out := ForecastRows(fut, fut, sums);
    forall i | 0 <= i < |out|
      ensures out[i].date > asOf && HasActuals(actual, out[i].key)
        && (out[i].forecastValue.Some? <==> MaxBudget(actual, out[i].key).Some?)
        && (out[i].finalValue.Some? <==> MaxBudget(actual, out[i].key).Some?)
    {
      assert fut[i] in fut;
    }
  }

  // ---------------------------------------------------------------------
  // Properties
  // ---------------------------------------------------------------------

  /** Sum of the entity's PLANNED_PERCENT values. */
  function PercentSum(rows: seq<PlannedRow>, k: Key, total: real): real
  {
    if rows == [] then 0.0
    else (if rows[0].key == k then PlannedPercent(rows[0].value, total) else 0.0) + PercentSum(rows[1..], k, total)
  }

  lemma DivideSum(a: real, b: real, t: real)
    requires t != 0.0
    ensures a / t + b / t == (a + b) / t
  {
  }

  lemma {:induction false} PercentSumIsShare(rows: seq<PlannedRow>, k: Key, total: real)
    requires total != 0.0
    ensures PercentSum(rows, k, total) == FutureTotal(rows, k) / total
  {
    if rows != [] {
      PercentSumIsShare(rows[1..], k, total);
      var v := if rows[0].key == k then rows[0].value else 0.0;
      DivideSum(v, FutureTotal(rows[1..], k), total);
    }
  }

  /** When the entity's future planned total is non-zero, its percents sum to 1. */
  lemma PercentsSumToOne(fut: seq<PlannedRow>, k: Key)
    requires FutureTotal(fut, k) != 0.0
    ensures PercentSum(fut, k, FutureTotal(fut, k)) == 1.0
  {
    PercentSumIsShare(fut, k, FutureTotal(fut, k));
    assert FutureTotal(fut, k) / FutureTotal(fut, k) == 1.0;
  }

  /** With non-negative planned values each entity row is at most the entity total. */
  lemma {:induction false} RowWithinTotal(rows: seq<PlannedRow>, k: Key, j: int)
    requires 0 <= j < |rows| && rows[j].key == k
    requires forall i :: 0 <= i < |rows| && rows[i].key == k ==> rows[i].value >= 0.0
    ensures 0.0 <= rows[j].value <= FutureTotal(rows, k)
  {
    FutureTotalNonNegative(rows[1..], k);
    if j > 0 {
      RowWithinTotal(rows[1..], k, j - 1);
    }
  }

  lemma {:induction false} FutureTotalNonNegative(rows: seq<PlannedRow>, k: Key)
    requires forall i :: 0 <= i < |rows| && rows[i].key == k ==> rows[i].value >= 0.0
    ensures FutureTotal(rows, k) >= 0.0
  {
    if rows != [] {
      FutureTotalNonNegative(rows[1..], k);
    }
  }

  /** With non-negative planned values every percent lies in [0, 1]. */
  lemma PercentInUnitInterval(fut: seq<PlannedRow>, k: Key, j: int)
    requires 0 <= j < |fut| && fut[j].key == k
    requires forall i :: 0 <= i < |fut| && fut[i].key == k ==> fut[i].value >= 0.0
    ensures 0.0 <= PlannedPercent(fut[j].value, FutureTotal(fut, k)) <= 1.0
  {
    RowWithinTotal(fut, k, j);
    if FutureTotal(fut, k) != 0.0 {
      FractionWithinUnit(fut[j].value, FutureTotal(fut, k));
    }
  }

  lemma FractionWithinUnit(v: real, t: real)
    requires 0.0 <= v <= t && t != 0.0
    ensures 0.0 <= v / t <= 1.0
  {
    assert v / t * t == v;
  }

  lemma DivideTimes(v: real, t: real, r: real)
    requires t != 0.0
    ensures (v / t) * r * t == r * v
  {
  }

  /** Adding one row's share to a window sum keeps it the planned share. */
  lemma ShareStep(v: real, total: real, remaining: real, rest: real, prest: real)
    requires total != 0.0
    requires rest * total == remaining * prest
    ensures (v / total * remaining + rest) * total == remaining * (v + prest)
  {
    DivideTimes(v, total, remaining);
  }

  /** The window sum is the planned share up to `d` of the remaining amount. */
  lemma {:induction false} CumForecastIsShare(rows: seq<PlannedRow>, k: Key, d: int, total: real, remaining: real)
    ensures total == 0.0 ==> CumForecast(rows, k, d, total, remaining) == 0.0
    ensures CumForecast(rows, k, d, total, remaining) * total == remaining * PlannedUpTo(rows, k, d)
      || total == 0.0
  {
    if rows != [] {
      CumForecastIsShare(rows[1..], k, d, total, remaining);
      if total != 0.0 {
        var rest, prest := CumForecast(rows[1..], k, d, total, remaining), PlannedUpTo(rows[1..], k, d);
        if rows[0].key == k && rows[0].date <= d {
          assert CumForecast(rows, k, d, total, remaining) == rows[0].value / total * remaining + rest;
          assert PlannedUpTo(rows, k, d) == rows[0].value + prest;
          ShareStep(rows[0].value, total, remaining, rest, prest);
        }
      }
    }
  }

  /** With no entity row dated after `d`, the share up to `d` is the whole total. */
  lemma {:induction false} PlannedUpToWhole(rows: seq<PlannedRow>, k: Key, d: int)
    requires forall i :: 0 <= i < |rows| && rows[i].key == k ==> rows[i].date <= d
    ensures PlannedUpTo(rows, k, d) == FutureTotal(rows, k)
  {
    if rows != [] {
      PlannedUpToWhole(rows[1..], k, d);
    }
  }

  /** With non-negative planned values the share grows with the date and
      stays between 0 and the total. */
  lemma {:induction false} PlannedUpToMonotone(rows: seq<PlannedRow>, k: Key, d1: int, d2: int)
    requires d1 <= d2
    requires forall i :: 0 <= i < |rows| && rows[i].key == k ==> rows[i].value >= 0.0
    ensures 0.0 <= PlannedUpTo(rows, k, d1) <= PlannedUpTo(rows, k, d2) <= FutureTotal(rows, k)
  {
    if rows != [] {
      PlannedUpToMonotone(rows[1..], k, d1, d2);
    }
  }

  /** Over an entity's future rows the forecast values add up to the
      remaining amount when the future total is non-zero, and to 0 otherwise. */
  lemma RemainingFullyAllocated(fut: seq<PlannedRow>, k: Key, d: int, remaining: real)
    requires forall i :: 0 <= i < |fut| && fut[i].key == k ==> fut[i].date <= d
    ensures CumForecast(fut, k, d, FutureTotal(fut, k), remaining)
      == if FutureTotal(fut, k) == 0.0 then 0.0 else remaining
  {
    var total := FutureTotal(fut, k);
    CumForecastIsShare(fut, k, d, total, remaining);
    PlannedUpToWhole(fut, k, d);
    if total != 0.0 {
      var c := CumForecast(fut, k, d, total, remaining);
      assert c * total == remaining * total;
      assert (c - remaining) * total == 0.0;
    }
  }

  /** Sum of the FORECAST_VALUE column over the entity's output rows. */
  function ForecastSum(out: seq<ForecastRow>, k: Key): real
  {
    if out == [] then 0.0
    else
      (if out[0].key == k && out[0].forecastValue.Some? then out[0].forecastValue.value else 0.0)
      + ForecastSum(out[1..], k)
  }

  /** The two computed columns of an output row whose entity has a budget. */
  lemma ForecastForValues(p: PlannedRow, fut: seq<PlannedRow>, s: EntitySummary, remaining: real)
    requires RemainingAmount(s.budget, s.totalActualCost) == Some(remaining)
    ensures var f := ForecastFor(p, fut, s);
      f.forecastValue.Some? && f.forecastValue.value == PlannedPercent(p.value, FutureTotal(fut, p.key)) * remaining
    ensures var f := ForecastFor(p, fut, s);
      f.finalValue.Some?
      && f.finalValue.value == CumForecast(fut, p.key, p.date, FutureTotal(fut, p.key), remaining) + s.lastCumulative
  {
    assert RemainingAmount(s.budget, s.totalActualCost).value == remaining;
  }

  /** Sum of FORECAST_VALUE over the entity's output rows dated on or before `d`. */
  function ForecastUpTo(out: seq<ForecastRow>, k: Key, d: int): real
  {
    if out == [] then 0.0
    else
      (if out[0].key == k && out[0].date <= d && out[0].forecastValue.Some? then out[0].forecastValue.value else 0.0)
      + ForecastUpTo(out[1..], k, d)
  }

  /** Up to a date no row of the entity exceeds, the running sum is the whole column. */
  lemma {:induction false} ForecastUpToWhole(out: seq<ForecastRow>, k: Key, d: int)
    requires forall i :: 0 <= i < |out| && out[i].key == k ==> out[i].date <= d
    ensures ForecastUpTo(out, k, d) == ForecastSum(out, k)
  {
    if out != [] {
      assert forall i :: 0 <= i < |out| - 1 ==> out[1..][i] == out[i + 1];
      ForecastUpToWhole(out[1..], k, d);
    }
  }

  /** One output row adds to the entity's running sum what its planned row
      adds to the window sum. */
  lemma RowAddsShare(p: PlannedRow, fut: seq<PlannedRow>, s: EntitySummary, k: Key, d: int, remaining: real)
    requires p.key == k ==> RemainingAmount(s.budget, s.totalActualCost) == Some(remaining)
    ensures var f := ForecastFor(p, fut, s);
      (if f.key == k && f.date <= d && f.forecastValue.Some? then f.forecastValue.value else 0.0)
      == (if p.key == k && p.date <= d then PlannedPercent(p.value, FutureTotal(fut, k)) * remaining else 0.0)
  {
    if p.key == k {
      ForecastForValues(p, fut, s, remaining);
    }
  }

  /** The running sum of an entity's FORECAST_VALUE up to any date is the
      window sum at that date. */
  lemma {:induction false} RunningSumIsWindowSum(rows: seq<PlannedRow>, fut: seq<PlannedRow>, sums: map<Key, EntitySummary>,
                                                 k: Key, d: int, remaining: real)
    requires forall p :: p in rows ==> p.key in sums
    requires k in sums && RemainingAmount(sums[k].budget, sums[k].totalActualCost) == Some(remaining)
    ensures ForecastUpTo(ForecastRows(rows, fut, sums), k, d) == CumForecast(rows, k, d, FutureTotal(fut, k), remaining)
  {
    if rows != [] {
      var out := ForecastRows(rows, fut, sums);
      assert rows[0] in rows;
      forall p | p in rows[1..] ensures p.key in sums {
        assert p in rows;
      }
      RunningSumIsWindowSum(rows[1..], fut, sums, k, d, remaining);
      assert out[0] == ForecastFor(rows[0], fut, sums[rows[0].key]);
      assert out[1..] == ForecastRows(rows[1..], fut, sums);
      RowAddsShare(rows[0], fut, sums[rows[0].key], k, d, remaining);
      ForecastUpToCons(out, k, d);
      CumForecastCons(rows, k, d, FutureTotal(fut, k), remaining);
    }
  }

  /** The running sum of a non-empty output splits into its first term and the rest. */
  lemma ForecastUpToCons(out: seq<ForecastRow>, k: Key, d: int)
    requires out != []
    ensures ForecastUpTo(out, k, d)
      == (if out[0].key == k && out[0].date <= d && out[0].forecastValue.Some? then out[0].forecastValue.value else 0.0)
         + ForecastUpTo(out[1..], k, d)
  {
  }

  /** The window sum of a non-empty planned sequence splits into its first term and the rest. */
  lemma CumForecastCons(rows: seq<PlannedRow>, k: Key, d: int, total: real, remaining: real)
    requires rows != []
    ensures CumForecast(rows, k, d, total, remaining)
      == (if rows[0].key == k && rows[0].date <= d then PlannedPercent(rows[0].value, total) * remaining else 0.0)
         + CumForecast(rows[1..], k, d, total, remaining)
  {
  }

  /** Summed over an entity's output rows, FORECAST_VALUE is the window sum
      at a date no row of the entity exceeds. */
  lemma {:induction false} ForecastSumIsWindowSum(rows: seq<PlannedRow>, fut: seq<PlannedRow>, sums: map<Key, EntitySummary>,
                                                  k: Key, d: int, remaining: real)
    requires forall p :: p in rows ==> p.key in sums
    requires k in sums && RemainingAmount(sums[k].budget, sums[k].totalActualCost) == Some(remaining)
    requires LatestFutureDate(rows, k, d)
    ensures ForecastSum(ForecastRows(rows, fut, sums), k) == CumForecast(rows, k, d, FutureTotal(fut, k), remaining)
  {
    RunningSumIsWindowSum(rows, fut, sums, k, d, remaining);
    ForecastUpToWhole(ForecastRows(rows, fut, sums), k, d);
  }

  /** The largest date among the joined rows of the entity bounds them all. */
  predicate LatestFutureDate(fut: seq<PlannedRow>, k: Key, d: int)
  {
    forall i :: 0 <= i < |fut| && fut[i].key == k ==> fut[i].date <= d
  }

  /** A date no row of the entity exceeds. */
  function MaxDate(rows: seq<PlannedRow>, k: Key): (d: int)
    ensures LatestFutureDate(rows, k, d)
  {
    if rows == [] then 0
    else
      var rest := MaxDate(rows[1..], k);
      assert forall i :: 1 <= i < |rows| ==> rows[i] == rows[1..][i - 1];
      if rows[0].key == k && rows[0].date > rest then rows[0].date else rest
  }

  /** Output row `i` of the curve is computed from joined row `i` and the
      summary of its entity. */
  lemma {:induction false} CurveRow(planned: seq<PlannedRow>, actual: seq<ActualPoint>, asOf: int, i: int)
    requires 0 <= i < |CreateForecastCurve(planned, actual, asOf)|
    ensures var sums := Summaries(actual);
      var fut := FuturePlanned(planned, sums, asOf);
      i < |fut| && fut[i].key in sums
      && CreateForecastCurve(planned, actual, asOf)[i] == ForecastFor(fut[i], fut, sums[fut[i].key])
      && sums[fut[i].key] == EntitySummary(TotalActualCost(actual, fut[i].key), MaxBudget(actual, fut[i].key),
                                           LatestRow(actual, fut[i].key).value.cumulative)
  {
    var sums := Summaries(actual);
    var fut := FuturePlanned(planned, sums, asOf);
    assert fut[i] in fut;
  }

  /** The converse of the filter: every planned row dated after `asOf`
      whose entity has actuals yields an output row with its key and date. */
  lemma {:induction false} CurveCoversFuturePlanned(planned: seq<PlannedRow>, actual: seq<ActualPoint>, asOf: int, p: PlannedRow)
    requires p in planned && p.date > asOf && HasActuals(actual, p.key)
    ensures var out := CreateForecastCurve(planned, actual, asOf);
      exists i :: 0 <= i < |out| && out[i].key == p.key && out[i].date == p.date
  {
    var sums := Summaries(actual);
    var fut := FuturePlanned(planned, sums, asOf);
    assert p in fut;
    var i :| 0 <= i < |fut| && fut[i] == p;
    CurveRow(planned, actual, asOf, i);
  }

  /** FORECAST_FINAL_VALUE of a row is the running sum of its entity's
      FORECAST_VALUE column up to the row's DATE, rows tied on DATE
      included, plus the entity's last CUMULATIVE_ACTUAL_COST. */
  lemma {:induction false} FinalIsRunningSum(planned: seq<PlannedRow>, actual: seq<ActualPoint>, asOf: int, i: int)
    requires 0 <= i < |CreateForecastCurve(planned, actual, asOf)|
    requires MaxBudget(actual, CreateForecastCurve(planned, actual, asOf)[i].key).Some?
    ensures var out := CreateForecastCurve(planned, actual, asOf);
      out[i].finalValue.Some?
      && out[i].finalValue.value == ForecastUpTo(out, out[i].key, out[i].date) + LatestRow(actual, out[i].key).value.cumulative
  {
    var sums := Summaries(actual);
    var fut := FuturePlanned(planned, sums, asOf);
    CurveRow(planned, actual, asOf, i);
    var k := fut[i].key;
    var rem := EntityRemaining(actual, k).value;
    assert CreateForecastCurve(planned, actual, asOf) == ForecastRows(fut, fut, sums);
    RunningSumIsWindowSum(fut, fut, sums, k, fut[i].date, rem);
    ForecastForValues(fut[i], fut, sums[k], rem);
  }

  /** The FORECAST_VALUE column of an entity with a budget adds up to its
      REMAINING_AMOUNT when its future planned total is non-zero, and to 0
      when it is zero. */
  lemma {:induction false} ForecastValuesAllocateRemaining(planned: seq<PlannedRow>, actual: seq<ActualPoint>, asOf: int, k: Key, remaining: real)
    requires HasActuals(actual, k)
    requires EntityRemaining(actual, k) == Some(remaining)
    ensures var fut := FuturePlanned(planned, Summaries(actual), asOf);
      ForecastSum(CreateForecastCurve(planned, actual, asOf), k)
        == if FutureTotal(fut, k) == 0.0 then 0.0 else remaining
  {
    var sums := Summaries(actual);
    var fut := FuturePlanned(planned, sums, asOf);
    var d := MaxDate(fut, k);
    assert sums[k].budget == MaxBudget(actual, k) && sums[k].totalActualCost == TotalActualCost(actual, k);
    assert CreateForecastCurve(planned, actual, asOf) == ForecastRows(fut, fut, sums);
    ForecastSumIsWindowSum(fut, fut, sums, k, d, remaining);
    RemainingFullyAllocated(fut, k, d, remaining);
  }

  /** A row on its entity's latest future date ends at the last cumulative
      actual plus the whole remaining amount. */
  lemma RowAtLatestDate(p: PlannedRow, fut: seq<PlannedRow>, s: EntitySummary, remaining: real)
    requires RemainingAmount(s.budget, s.totalActualCost) == Some(remaining)
    requires FutureTotal(fut, p.key) != 0.0 && LatestFutureDate(fut, p.key, p.date)
    ensures var f := ForecastFor(p, fut, s);
      f.finalValue.Some? && f.finalValue.value == s.lastCumulative + remaining
  {
    ForecastForValues(p, fut, s, remaining);
    RemainingFullyAllocated(fut, p.key, p.date, remaining);
  }

  /** With non-negative planned values, a later row of an entity ends no
      lower than an earlier one, and none lower than the last cumulative actual. */
  lemma RowsNonDecreasing(p: PlannedRow, q: PlannedRow, fut: seq<PlannedRow>, s: EntitySummary)
    requires s.budget.Some?
    requires p.key == q.key && p.date <= q.date
    requires forall m :: 0 <= m < |fut| && fut[m].key == p.key ==> fut[m].value >= 0.0
    ensures var fp, fq := ForecastFor(p, fut, s), ForecastFor(q, fut, s);
      fp.finalValue.Some? && fq.finalValue.Some?
      && s.lastCumulative <= fp.finalValue.value <= fq.finalValue.value
  {
    var k := p.key;
    var rem := RemainingAmount(s.budget, s.totalActualCost).value;
    FutureTotalNonNegative(fut, k);
    WindowSumsOrdered(fut, k, p.date, q.date, FutureTotal(fut, k), rem);
    ForecastForValues(p, fut, s, rem);
    ForecastForValues(q, fut, s, rem);
  }

  /** With non-negative planned values, the window sum of an entity grows
      with the date and starts at no less than 0: every row a window up to
      `d1` adds also lies in the window up to `d2`, and each adds a
      non-negative share. */
  lemma {:induction false} WindowSumsOrdered(rows: seq<PlannedRow>, k: Key, d1: int, d2: int, total: real, rem: real)
    requires d1 <= d2 && total >= 0.0 && rem >= 0.0
    requires forall m :: 0 <= m < |rows| && rows[m].key == k ==> rows[m].value >= 0.0
    ensures 0.0 <= CumForecast(rows, k, d1, total, rem) <= CumForecast(rows, k, d2, total, rem)
  {
    if rows != [] {
      WindowSumsOrdered(rows[1..], k, d1, d2, total, rem);
      if rows[0].key == k {
        ShareNonNegative(rows[0].value, total, rem);
      }
    }
  }

  /** One row's FORECAST_VALUE is non-negative when its planned value is. */
  lemma ShareNonNegative(v: real, total: real, rem: real)
    requires v >= 0.0 && total >= 0.0 && rem >= 0.0
    ensures PlannedPercent(v, total) * rem >= 0.0
  {
    if total != 0.0 {
      assert v / total >= 0.0;
    }
  }

  /** The output row on the entity's latest future date carries the last
      cumulative actual plus the whole remaining amount. */
  lemma {:induction false} LastForecastAddsRemaining(planned: seq<PlannedRow>, actual: seq<ActualPoint>, asOf: int, i: int, remaining: real)
    requires 0 <= i < |CreateForecastCurve(planned, actual, asOf)|
    requires var o := CreateForecastCurve(planned, actual, asOf)[i];
      var fut := FuturePlanned(planned, Summaries(actual), asOf);
      EntityRemaining(actual, o.key) == Some(remaining)
      && FutureTotal(fut, o.key) != 0.0
      && LatestFutureDate(fut, o.key, o.date)
    ensures var o := CreateForecastCurve(planned, actual, asOf)[i];
      o.finalValue.Some? && o.finalValue.value == LatestRow(actual, o.key).value.cumulative + remaining
  {
    var sums := Summaries(actual);
    var fut := FuturePlanned(planned, sums, asOf);
    CurveRow(planned, actual, asOf, i);
    RowAtLatestDate(fut[i], fut, sums[fut[i].key], remaining);
  }

  /** With non-negative planned values an entity's FORECAST_FINAL_VALUE
      never falls as DATE advances, and never lies below the entity's last
      cumulative actual. */
  lemma {:induction false} ForecastNonDecreasing(planned: seq<PlannedRow>, actual: seq<ActualPoint>, asOf: int, i: int, j: int)
    requires 0 <= i < |CreateForecastCurve(planned, actual, asOf)|
    requires 0 <= j < |CreateForecastCurve(planned, actual, asOf)|
    requires var out := CreateForecastCurve(planned, actual, asOf);
      out[i].key == out[j].key && out[i].date <= out[j].date && MaxBudget(actual, out[i].key).Some?
    requires forall p :: p in planned && p.key == CreateForecastCurve(planned, actual, asOf)[i].key && p.date > asOf ==> p.value >= 0.0
    ensures var out := CreateForecastCurve(planned, actual, asOf);
      out[i].finalValue.Some? && out[j].finalValue.Some?
      && LatestRow(actual, out[i].key).value.cumulative <= out[i].finalValue.value <= out[j].finalValue.value
  {
    var sums := Summaries(actual);
    var fut := FuturePlanned(planned, sums, asOf);
    CurveRow(planned, actual, asOf, i);
    CurveRow(planned, actual, asOf, j);
    var k := fut[i].key;
    forall m | 0 <= m < |fut| && fut[m].key == k ensures fut[m].value >= 0.0 {
      assert fut[m] in fut;
    }
    RowsNonDecreasing(fut[i], fut[j], fut, sums[k]);
  }

  /** Fed the ACTUALVALUE table `add_cumulative_per_group` builds (each
      cumulative the entity's cost up to its date), the latest cumulative
      actual of an entity is its total actual cost, so the forecast ends at
      the larger of the approved budget and the cost already incurred. */
  lemma {:induction false} ForecastEndsAtBudgetOrActual(planned: seq<PlannedRow>, actual: seq<ActualPoint>, asOf: int, i: int)
    requires forall m :: 0 <= m < |actual| ==>
      actual[m].cumulative == CostUpTo(RowsOf(actual), actual[m].row.key, actual[m].row.date)
    requires 0 <= i < |CreateForecastCurve(planned, actual, asOf)|
    requires var o := CreateForecastCurve(planned, actual, asOf)[i];
      var fut := FuturePlanned(planned, Summaries(actual), asOf);
      MaxBudget(actual, o.key).Some?
      && FutureTotal(fut, o.key) != 0.0
      && LatestFutureDate(fut, o.key, o.date)
    ensures var o := CreateForecastCurve(planned, actual, asOf)[i];
      var budget, spent := MaxBudget(actual, o.key).value, TotalActualCost(actual, o.key);
      o.finalValue.Some? && o.finalValue.value == if budget > spent then budget else spent
  {
    var k := CreateForecastCurve(planned, actual, asOf)[i].key;
    var budget, spent := MaxBudget(actual, k).value, TotalActualCost(actual, k);
    var rem := RemainingAmount(Some(budget), spent).value;
    assert spent + rem == if budget > spent then budget else spent;
    LatestCumulativeIsTotal(actual, k);
    LastForecastAddsRemaining(planned, actual, asOf, i, rem);
  }

  /** On such a table the latest row of an entity carries its total cost. */
  lemma {:induction false} LatestCumulativeIsTotal(actual: seq<ActualPoint>, k: Key)
    requires forall m :: 0 <= m < |actual| ==>
      actual[m].cumulative == CostUpTo(RowsOf(actual), actual[m].row.key, actual[m].row.date)
    requires HasActuals(actual, k)
    ensures LatestRow(actual, k).value.cumulative == TotalActualCost(actual, k)
  {
    var latest := LatestRow(actual, k).value;
    var rows := RowsOf(actual);
    var m :| 0 <= m < |actual| && actual[m] == latest;
    CostUpToAgainstKeyCost(rows, k, latest.row.date);
  }
}

=== FILE: sources.dfy ===
/** The inputs of the actual-cost curve: the budget roll-up of the fund
    rows (`load_budget_data`) and the left join of the unioned ledger rows
    with budget and schedule (`join_all_data`). */
module Sources {
  import opened Common

  /** A fund row of the cost sheet: one entity may have several funds. */
  datatype FundRow = FundRow(key: Key, budget: Option<real>)

  /** One row per entity after the roll-up; None when every fund row of the
      entity has a NULL budget (SQL SUM over NULLs only). */
  datatype BudgetRow = BudgetRow(key: Key, budget: Option<real>)

  /** An ACTUALS_COST cell as loaded: a number (or text that parses as
      one), text that does not parse, or NULL. */
  datatype CostCell = Number(amount: real) | Unparsable | Missing

  /** A ledger row of the union of the invoice, pay-application and
      pay-request tables; INVOICE_DATE is a day number. */
  datatype ActualRow = ActualRow(key: Key, invoiceDate: int, cost: CostCell)

  /** A schedule row: CURRENTSTART and CURRENTEND as day numbers. */
  datatype ScheduleRow = ScheduleRow(key: Key, start: Option<int>, end: Option<int>)

  /** A row of the joined table that `add_cumulative_per_group` reads. */
  datatype JoinedRow = JoinedRow(key: Key, invoiceDate: int, cost: CostCell,
                                 budget: Option<real>, start: Option<int>, end: Option<int>)

  // ---------------------------------------------------------------------
  // Budget roll-up: group_by(key).agg(sum BUDGET_CURRENT_APPROVED)
  // ---------------------------------------------------------------------

  /** The keys of `keys`, each once, in order of first appearance. */
  function DistinctKeys(keys: seq<Key>): (r: seq<Key>)
    ensures forall i, j :: 0 <= i < j < |r| ==> r[i] != r[j]
    ensures forall k :: k in r <==> k in keys
  {
    if keys == [] then []
    else
      var prefix := DistinctKeys(keys[..|keys| - 1]);
      assert keys == keys[..|keys| - 1] + [keys[|keys| - 1]];
      if keys[|keys| - 1] in prefix then prefix else prefix + [keys[|keys| - 1]]
  }

  /** Addition as SQL SUM accumulates it: NULLs are skipped, and the sum
      of NULLs alone is NULL. */
  function AddNullable(a: Option<real>, b: Option<real>): Option<real>
  {
    match (a, b)
    case (None, _) => b
    case (_, None) => a
    case (Some(x), Some(y)) => Some(x + y)
  }

  /** The budget of a fund row counted towards `k`: 0 when it belongs to
      another entity or is NULL. */
  function BudgetOf(f: FundRow, k: Key): real
  {
    if f.key == k && f.budget.Some? then f.budget.value else 0.0
  }

  /** Total budget of entity `k` with NULL read as 0 (the reference sum). */
  function BudgetTotal(funds: seq<FundRow>, k: Key): real
  {
    if funds == [] then 0.0 else BudgetOf(funds[0], k) + BudgetTotal(funds[1..], k)
  }

  /** SUM(BUDGET_CURRENT_APPROVED) over the fund rows of entity `k`. */
  function FundSum(funds: seq<FundRow>, k: Key): (r: Option<real>)
    ensures r.None? <==> forall i :: 0 <= i < |funds| && funds[i].key == k ==> funds[i].budget.None?
    ensures BudgetTotal(funds, k) == if r.Some? then r.value else 0.0
  {
    if funds == [] then None
    else
      var here := if funds[0].key == k then funds[0].budget else None;
      var rest := FundSum(funds[1..], k);
      assert forall i :: 1 <= i < |funds| ==> funds[i] == funds[1..][i - 1];
      AddNullable(here, rest)
  }

  /** `load_budget_data`: one row per entity of the fund table, holding
      the sum of that entity's fund budgets. */
  function BudgetTotals(funds: seq<FundRow>): (r: seq<BudgetRow>)
    ensures forall i, j :: 0 <= i < j < |r| ==> r[i].key != r[j].key
    ensures forall f :: f in funds ==> exists i :: 0 <= i < |r| && r[i].key == f.key
    ensures forall i :: 0 <= i < |r| ==>
      HasFunds(funds, r[i].key) && r[i].budget == FundSum(funds, r[i].key)
  {
    var keys := DistinctKeys(FundKeys(funds));
    var r := seq(|keys|, i requires 0 <= i < |keys| => BudgetRow(keys[i], FundSum(funds, keys[i])));
    RollUpCoversFunds(funds, keys, r);
    r
  }

  /** Some fund row belongs to entity `k`. */
  predicate HasFunds(funds: seq<FundRow>, k: Key)
  {
    exists n :: 0 <= n < |funds| && funds[n].key == k
  }

  function FundKeys(funds: seq<FundRow>): (ks: seq<Key>)
    ensures |ks| == |funds| && forall i :: 0 <= i < |funds| ==> ks[i] == funds[i].key
  {
    seq(|funds|, i requires 0 <= i < |funds| => funds[i].key)
  }

  lemma RollUpCoversFunds(funds: seq<FundRow>, keys: seq<Key>, r: seq<BudgetRow>)
    requires forall k :: k in keys <==> k in FundKeys(funds)
    requires |r| == |keys| && forall i :: 0 <= i < |r| ==> r[i].key == keys[i]
    ensures forall f :: f in funds ==> exists i :: 0 <= i < |r| && r[i].key == f.key
    ensures forall i :: 0 <= i < |r| ==> HasFunds(funds, r[i].key)
  {
    var ks := FundKeys(funds);
    forall f | f in funds ensures exists i :: 0 <= i < |r| && r[i].key == f.key {
      var n :| 0 <= n < |funds| && funds[n] == f;
      assert ks[n] == f.key;
      assert r[IndexOf(keys, f.key)].key == f.key;
    }
    forall i | 0 <= i < |r| ensures HasFunds(funds, r[i].key) {
      assert keys[i] in keys;
      var n := IndexOf(ks, keys[i]);
      assert funds[n].key == r[i].key;
    }
  }

  /** Position of a key known to occur. */
  function IndexOf(keys: seq<Key>, k: Key): (i: nat)
    requires k in keys
    ensures i < |keys| && keys[i] == k
  {
    if keys[0] == k then 0 else 1 + IndexOf(keys[1..], k)
  }

  // ---------------------------------------------------------------------
  // join_all_data: actuals LEFT JOIN budget LEFT JOIN schedule on the key
  // ---------------------------------------------------------------------

  /** Budgets of the budget rows matching `k`, or one NULL when none
      matches (the left join keeps the row). */
  function BudgetSide(budgets: seq<BudgetRow>, k: Key): (r: seq<Option<real>>)
    ensures |r| >= 1
  {
    var m := BudgetMatches(budgets, k);
    if m == [] then [None] else m
  }

  /** The budgets of the rows matching `k`, one per matching row. */
  function BudgetMatches(budgets: seq<BudgetRow>, k: Key): (r: seq<Option<real>>)
    ensures |r| <= |budgets|
    ensures forall b :: b in r <==> exists i :: 0 <= i < |budgets| && budgets[i].key == k && budgets[i].budget == b
    ensures forall b :: multiset(r)[b] == multiset(budgets)[BudgetRow(k, b)]
  {
    if budgets == [] then []
    else
      var rest := BudgetMatches(budgets[1..], k);
      assert forall i :: 1 <= i < |budgets| ==> budgets[i] == budgets[1..][i - 1];
      assert budgets == [budgets[0]] + budgets[1..];
      if budgets[0].key == k then [budgets[0].budget] + rest else rest
  }

  /** Schedule rows matching `k`, or one all-NULL row when none matches. */
  function ScheduleSide(schedules: seq<ScheduleRow>, k: Key): (r: seq<ScheduleRow>)
    ensures |r| >= 1
  {
    var m := ScheduleMatches(schedules, k);
    if m == [] then [ScheduleRow(k, None, None)] else m
  }

  /** The schedule rows matching `k`, each as often as it occurs. */
  function ScheduleMatches(schedules: seq<ScheduleRow>, k: Key): (r: seq<ScheduleRow>)
    ensures |r| <= |schedules|
    ensures forall s :: s in r <==> s in schedules && s.key == k
    ensures forall s :: multiset(r)[s] == if s.key == k then multiset(schedules)[s] else 0
  {
    if schedules == [] then []
    else
      var rest := ScheduleMatches(schedules[1..], k);
      assert schedules == [schedules[0]] + schedules[1..];
      assert forall s :: s in schedules[1..] ==> s in schedules;
      assert forall s :: s in schedules ==> s == schedules[0] || s in schedules[1..];
      if schedules[0].key == k then [schedules[0]] + rest else rest
  }

  /** The joined rows one ledger row yields: one per matching budget row
      times one per matching schedule row. */
  function JoinOne(a: ActualRow, bs: seq<Option<real>>, ss: seq<ScheduleRow>): seq<JoinedRow>
  {
    if bs == [] then []
    else
      seq(|ss|, j requires 0 <= j < |ss| =>
        JoinedRow(a.key, a.invoiceDate, a.cost, bs[0], ss[j].start, ss[j].end))
      + JoinOne(a, bs[1..], ss)
  }

  /** `join_all_data`: each ledger row, in order, joined with the budget side
      and then the schedule side of its key. Being left joins, they drop no
      ledger row: the result is empty only for an empty ledger. */
  function JoinAllData(actuals: seq<ActualRow>, budgets: seq<BudgetRow>, schedules: seq<ScheduleRow>): (r: seq<JoinedRow>)
    ensures |r| >= |actuals|
    ensures r == [] <==> actuals == []
  {
    if actuals == [] then []
    else
      var a := actuals[0];
      JoinOne(a, BudgetSide(budgets, a.key), ScheduleSide(schedules, a.key))
      + JoinAllData(actuals[1..], budgets, schedules)
  }

  /** `j` carries the key, date and cost of ledger row `a`. */
  predicate FromActual(j: JoinedRow, a: ActualRow)
  {
    j.key == a.key && j.invoiceDate == a.invoiceDate && j.cost == a.cost
  }

  /** The budget and schedule fields of `j` come from rows matching its
      key, and are NULL only when no such row supplies a value. */
  predicate Attached(j: JoinedRow, budgets: seq<BudgetRow>, schedules: seq<ScheduleRow>)
  {
    j.budget in BudgetSide(budgets, j.key)
    && ScheduleRow(j.key, j.start, j.end) in ScheduleSide(schedules, j.key)
  }

  lemma {:induction false} JoinOneShape(a: ActualRow, bs: seq<Option<real>>, ss: seq<ScheduleRow>)
    requires forall s :: s in ss ==> s.key == a.key
    ensures |JoinOne(a, bs, ss)| == |bs| * |ss|
    ensures forall j :: j in JoinOne(a, bs, ss) ==>
      FromActual(j, a) && j.budget in bs && ScheduleRow(j.key, j.start, j.end) in ss
    ensures |bs| > 0 && |ss| > 0 ==>
      JoinOne(a, bs, ss)[0] == JoinedRow(a.key, a.invoiceDate, a.cost, bs[0], ss[0].start, ss[0].end)
  {
    if bs != [] {
      JoinOneShape(a, bs[1..], ss);
      var head := seq(|ss|, j requires 0 <= j < |ss| =>
        JoinedRow(a.key, a.invoiceDate, a.cost, bs[0], ss[j].start, ss[j].end));
      forall j | j in head
        ensures FromActual(j, a) && j.budget in bs && ScheduleRow(j.key, j.start, j.end) in ss
      {
        var n :| 0 <= n < |ss| && head[n] == j;
        assert ss[n] == ScheduleRow(j.key, j.start, j.end);
      }
      assert |bs| * |ss| == |ss| + |bs[1..]| * |ss|;
    }
  }

  /** Position of pair (b, s) in a budget-major listing of blocks of `n`. */
  function Position(b: nat, s: nat, n: nat): nat
  {
    if b == 0 then s else n + Position(b - 1, s, n)
  }

  /** The position of pair (b, s) is `b * n + s`. */
  lemma {:induction false} PositionIsProduct(b: nat, s: nat, n: nat)
    ensures Position(b, s, n) == b * n + s
  {
    if b > 0 {
      PositionIsProduct(b - 1, s, n);
      assert b * n == n + (b - 1) * n;
    }
  }

  /** The joined rows of one ledger row list every (budget match, schedule
      match) pair exactly once, budget-major: pair (b, s) sits at
      `Position(b, s, |ss|)`, that is at `b * |ss| + s`. */
  lemma {:induction false} JoinOnePairs(a: ActualRow, bs: seq<Option<real>>, ss: seq<ScheduleRow>)
    ensures forall b: nat, s: nat :: b < |bs| && s < |ss| ==>
      Position(b, s, |ss|) < |JoinOne(a, bs, ss)|
      && JoinOne(a, bs, ss)[Position(b, s, |ss|)] == JoinedRow(a.key, a.invoiceDate, a.cost, bs[b], ss[s].start, ss[s].end)
  {
    if bs != [] {
      JoinOnePairs(a, bs[1..], ss);
      var rest := JoinOne(a, bs[1..], ss);
      var out := JoinOne(a, bs, ss);
      assert |out| == |ss| + |rest|;
      forall b: nat, s: nat | b < |bs| && s < |ss|
        ensures Position(b, s, |ss|) < |out|
          && out[Position(b, s, |ss|)] == JoinedRow(a.key, a.invoiceDate, a.cost, bs[b], ss[s].start, ss[s].end)
      {
        if b > 0 {
          var m := Position(b - 1, s, |ss|);
          assert bs[1..][b - 1] == bs[b];
          assert m < |rest| && rest[m] == JoinedRow(a.key, a.invoiceDate, a.cost, bs[1..][b - 1], ss[s].start, ss[s].end);
          assert out[|ss| + m] == rest[m];
        }
      }
    }
  }

  /** The left join keeps every ledger row, at least once. */
  lemma {:induction false} JoinKeepsEveryActual(actuals: seq<ActualRow>, budgets: seq<BudgetRow>, schedules: seq<ScheduleRow>)
    ensures |JoinAllData(actuals, budgets, schedules)| >= |actuals|
    ensures forall i :: 0 <= i < |actuals| ==>
      exists j :: j in JoinAllData(actuals, budgets, schedules) && FromActual(j, actuals[i])
  {
    if actuals != [] {
      var a := actuals[0];
      var bs, ss := BudgetSide(budgets, a.key), ScheduleSide(schedules, a.key);
      var head, rest := JoinOne(a, bs, ss), JoinAllData(actuals[1..], budgets, schedules);
      var out := JoinAllData(actuals, budgets, schedules);
      JoinKeepsEveryActual(actuals[1..], budgets, schedules);
      JoinOneShape(a, bs, ss);
      assert out == head + rest;
      assert |head| >= 1 by {
        assert |bs| >= 1 && |ss| >= 1;
      }
      forall i | 0 <= i < |actuals| ensures exists j :: j in out && FromActual(j, actuals[i]) {
        if i == 0 {
          assert head[0] in out && FromActual(head[0], a);
        } else {
          assert actuals[1..][i - 1] == actuals[i];
          var j :| j in rest && FromActual(j, actuals[i]);
          assert j in out;
        }
      }
    }
  }

  /** The left join makes up no row: each joined row carries the key, date
      and cost of a ledger row, and only budget and schedule values of its
      own key, or NULL when its key has no match. */
  lemma {:induction false} JoinInventsNothing(actuals: seq<ActualRow>, budgets: seq<BudgetRow>, schedules: seq<ScheduleRow>)
    ensures forall j :: j in JoinAllData(actuals, budgets, schedules) ==>
      (exists a :: a in actuals && FromActual(j, a)) && Attached(j, budgets, schedules)
  {
    if actuals != [] {
      var a := actuals[0];
      var bs, ss := BudgetSide(budgets, a.key), ScheduleSide(schedules, a.key);
      var head, rest := JoinOne(a, bs, ss), JoinAllData(actuals[1..], budgets, schedules);
      JoinInventsNothing(actuals[1..], budgets, schedules);
      assert forall s :: s in ss ==> s.key == a.key;
      JoinOneShape(a, bs, ss);
      assert JoinAllData(actuals, budgets, schedules) == head + rest;
      forall j | j in head + rest
        ensures (exists a :: a in actuals && FromActual(j, a)) && Attached(j, budgets, schedules)
      {
        if j in head {
          assert FromActual(j, actuals[0]);
        } else {
          var b :| b in actuals[1..] && FromActual(j, b);
          assert b in actuals;
        }
      }
    }
  }

  /** The budget an entity has in the roll-up, NULL when it has none. */
  function BudgetLookup(budgets: seq<BudgetRow>, k: Key): Option<real>
  {
    if budgets == [] then None
    else if budgets[0].key == k then budgets[0].budget
    else BudgetLookup(budgets[1..], k)
  }

  /** The schedule window of an entity, all NULL when it has none. */
  function ScheduleLookup(schedules: seq<ScheduleRow>, k: Key): ScheduleRow
  {
    if schedules == [] then ScheduleRow(k, None, None)
    else if schedules[0].key == k then schedules[0]
    else ScheduleLookup(schedules[1..], k)
  }

  lemma {:induction false} UniqueBudgetSide(budgets: seq<BudgetRow>, k: Key)
    requires forall i, j :: 0 <= i < j < |budgets| ==> budgets[i].key != budgets[j].key
    ensures BudgetSide(budgets, k) == [BudgetLookup(budgets, k)]
  {
    if budgets != [] {
      UniqueBudgetSide(budgets[1..], k);
      if budgets[0].key == k {
        var rest := BudgetMatches(budgets[1..], k);
        forall i | 0 <= i < |budgets[1..]| ensures budgets[1..][i].key != k {
          assert budgets[1..][i] == budgets[i + 1];
        }
        HeadIsMember(rest);
      }
    }
  }

  lemma HeadIsMember<T>(s: seq<T>)
    ensures s == [] || s[0] in s
  {
  }

  lemma {:induction false} UniqueScheduleSide(schedules: seq<ScheduleRow>, k: Key)
    requires forall i, j :: 0 <= i < j < |schedules| ==> schedules[i].key != schedules[j].key
    ensures ScheduleSide(schedules, k) == [ScheduleLookup(schedules, k)]
  {
    if schedules != [] {
      UniqueScheduleSide(schedules[1..], k);
      if schedules[0].key == k {
        var rest := ScheduleMatches(schedules[1..], k);
        forall s | s in schedules[1..] ensures s.key != k {
          var i :| 0 <= i < |schedules[1..]| && schedules[1..][i] == s;
          assert schedules[1..][i] == schedules[i + 1];
        }
        HeadIsMember(rest);
      }
    }
  }

  /** The joined row a ledger row becomes when its entity has at most one
      budget row and at most one schedule row. */
  function JoinedFor(a: ActualRow, budgets: seq<BudgetRow>, schedules: seq<ScheduleRow>): JoinedRow
  {
    var s := ScheduleLookup(schedules, a.key);
    JoinedRow(a.key, a.invoiceDate, a.cost, BudgetLookup(budgets, a.key), s.start, s.end)
  }

  /** With at most one budget row and at most one schedule row per entity
      (the roll-up guarantees the former), the left join is row for row:
      ledger row i becomes joined row i, with its entity's budget and
      schedule attached, or NULLs when the entity has none. */
  lemma {:induction false} JoinIsRowForRow(actuals: seq<ActualRow>, budgets: seq<BudgetRow>, schedules: seq<ScheduleRow>)
    requires forall i, j :: 0 <= i < j < |budgets| ==> budgets[i].key != budgets[j].key
    requires forall i, j :: 0 <= i < j < |schedules| ==> schedules[i].key != schedules[j].key
    ensures |JoinAllData(actuals, budgets, schedules)| == |actuals|
    ensures forall i :: 0 <= i < |actuals| ==>
      JoinAllData(actuals, budgets, schedules)[i] == JoinedFor(actuals[i], budgets, schedules)
  {
    if actuals != [] {
      var a := actuals[0];
      UniqueBudgetSide(budgets, a.key);
      UniqueScheduleSide(schedules, a.key);
      var bs, ss := BudgetSide(budgets, a.key), ScheduleSide(schedules, a.key);
      JoinOneShape(a, bs, ss);
      JoinIsRowForRow(actuals[1..], budgets, schedules);
      var head, rest := JoinOne(a, bs, ss), JoinAllData(actuals[1..], budgets, schedules);
      var out := JoinAllData(actuals, budgets, schedules);
      assert out == head + rest;
      assert |head| == 1;
      forall i | 0 <= i < |actuals| ensures out[i] == JoinedFor(actuals[i], budgets, schedules) {
        if i > 0 {
          assert out[i] == rest[i - 1];
          assert actuals[1..][i - 1] == actuals[i];
        }
      }
    }
  }

  /** Joining ledger rows against the roll-up, whose keys are distinct,
      keeps the table row for row whenever schedules are unique per key. */
  lemma JoinWithRollUp(actuals: seq<ActualRow>, funds: seq<FundRow>, schedules: seq<ScheduleRow>)
    requires forall i, j :: 0 <= i < j < |schedules| ==> schedules[i].key != schedules[j].key
    ensures |JoinAllData(actuals, BudgetTotals(funds), schedules)| == |actuals|
    ensures forall i :: 0 <= i < |actuals| ==>
      JoinAllData(actuals, BudgetTotals(funds), schedules)[i] == JoinedFor(actuals[i], BudgetTotals(funds), schedules)
  {
    JoinIsRowForRow(actuals, BudgetTotals(funds), schedules);
  }
}
